=== FILE: README.md ===
# Frame retention engine, batch orchestrator and window logic — a Dafny model

The application thins a video down to the frames that change. For each frame
it asks a change detector whether the frame differs enough from the one before
it: frame difference, structural similarity (SSIM) or optical flow. It writes
only the retained frames, forwards or reversed, and reports a playback speed
("Twixtor speed") that restores the original duration. A batch orchestrator
runs that engine over a list of videos, one after another. The window and its
dialogs hold the parameters, propose output paths, keep the batch list and show
a one-pair preview. Settings persist in a JSON file.

The model is functional throughout. Every operation is a function or method
over immutable datatypes, and every collaborator it cannot see is a parameter:

- Decoding, encoding and the file system are a `Source` record. It says whether
  the input and writer opened, gives the reported metadata, states the output
  directory, and lists the frames that can be read.
- The pixel work (grey conversion, Gaussian blur, thresholded difference and
  contours, SSIM, Farneback flow) is a function `measure` from a
  (previous, current) frame pair to `Comparison`. A comparison is either the
  measurements each algorithm reads or `Raised`, for an OpenCV error.
- A stop request is the index of the first cancellation checkpoint that sees
  it. A run polls one checkpoint before each frame read, one before the write
  phase and one before each frame write. A batch numbers its checkpoints
  globally: two per file, then the engine's own.
- Signals are returned as a sequence of events, in emission order.
- Python's `str` and `os.path` are modelled in `text.dfy` and `paths.dfy`.
  Paths follow POSIX rules, and the integer text forms are ASCII decimal.

Modules, one per file: `Wrappers`, `Text`, `Paths`, `Detector` (the detector
and the engine's parameter selection), `VideoProcessor` (the engine),
`RetentionLaws`, `BatchProcessor`, `BatchLaws`, `Settings`, `Dialogs` and
`MainWindow`.

Behaviours of the code worth noting:

- A one-frame video finishes with one kept frame and a speed of 100
  (`RetentionLaws.OneFrameVideo`). The frame-rate fallback of 30 means the
  zero-duration guard never fires on a finished run.
- The batch's stop request is not passed on to the running file (Findings,
  first row).
- The engine accepts any algorithm name. A name other than the three
  identifiers smooths with the frame-difference blur size and keeps only the
  first and last frames (`RetentionLaws.UnrecognisedKeepsOnlyEnds`).

## Model

| member | source | states |
|---|---|---|
| Detector.AlgorithmOf | core/video_processor.py:40-45 | each of the three algorithms is chosen by its exact identifier, and every other name is unrecognised |
| Detector.NormaliseBlur | core/video_processor.py:47-48 | the blur size is odd and at least 1; an odd positive size is kept, an even non-negative one goes up by one, and a negative one becomes 1 |
| Detector.ResolveConfig | core/video_processor.py:28-48 | the algorithm follows the name; the blur key is the one of that algorithm, the frame-difference key for an unrecognised name, and is normalised; the binarisation threshold, min area, SSIM threshold and flow threshold are kept when present and are 15, 500, 0.98 and 1.0 when missing |
| Detector.DefaultBlurPerAlgorithm | core/video_processor.py:40-45 | with no blur entries, optical flow smooths with 7 and the other algorithms with 5 |
| Detector.SsimWindow | core/video_processor.py:150-151 | the SSIM window is odd, at most 7, the blur, the height and the width, and at most one below their minimum |
| Detector.Decide | core/video_processor.py:136-179 | a fault exactly when the pixel work raises; frame difference keeps iff some contour area exceeds min area; SSIM keeps iff the shapes differ, the window is below 3, or the index is below the threshold; optical flow keeps iff the mean magnitude exceeds the threshold; an unrecognised algorithm never keeps |
| Detector.AreaEqualToMinAreaDoesNotKeep | core/video_processor.py:142 | an area equal to min area does not keep the frame (the comparison is strict) |
| Detector.StricterKeepsLess | core/video_processor.py:142-177 | what a stricter configuration keeps, a laxer one keeps too, and faults coincide |
| VideoProcessor.Select | core/video_processor.py:184-186 | the selected indices lie in the range and are marked, and there are no more of them than the range is long |
| VideoProcessor.SelectSorted | core/video_processor.py:184-186 | the selected indices are strictly increasing |
| VideoProcessor.SelectComplete | core/video_processor.py:184-186 | every marked index of the range is selected |
| VideoProcessor.KeptMask | core/video_processor.py:120-182 | a readable frame is marked exactly when it is the first, the last, or one the detector keeps against its predecessor |
| VideoProcessor.KeptBetween | core/video_processor.py:120-186 | the reference retention set: exactly the retained indices of a range, increasing |
| VideoProcessor.ScanFrom | core/video_processor.py:104-193 | the frame loop keeps exactly the reference set of the frames it processed; it stops at the end of the video, at a failed read, at a checkpoint that sees the stop, or at a raising comparison, and at the first of these |
| VideoProcessor.Analyse | core/video_processor.py:104-193 | the kept indices are increasing, below the processed count, start with frame 0, and end with the last frame when every frame was read |
| VideoProcessor.KeptAnchors | core/video_processor.py:124-130 | the first and the last frame are always kept |
| VideoProcessor.AnalysisProgress | core/video_processor.py:188-193 | one progress signal per processed frame, with its count and the total, and the percentage within 0..100 and never decreasing |
| VideoProcessor.Percent | core/video_processor.py:192 | the percentage is within 0..100 and is 100 when all frames are done |
| VideoProcessor.PercentMonotone | core/video_processor.py:192 | more frames done never lowers the percentage |
| VideoProcessor.Reverse | core/video_processor.py:207-208 | reversal maps position k to position n-1-k |
| VideoProcessor.WriteFrom | core/video_processor.py:213-222 | the write loop writes every retained frame unless a checkpoint sees the stop, and then it stops at the first such checkpoint |
| VideoProcessor.WriteOrder | core/video_processor.py:207-208 | the frames are written in analysis order, or position k takes the frame from position n-1-k when reversing is asked for |
| VideoProcessor.EffectiveFps | core/video_processor.py:74-76 | a frame rate of 0 or less becomes 30, and a positive one is kept |
| VideoProcessor.ValidMetadata | core/video_processor.py:81-82 | the metadata is refused exactly when the frame count, width or height is 0 or less |
| VideoProcessor.OutputDirFails | core/video_processor.py:87-89 | creating the output directory is attempted, and fails, only for a non-empty directory that is missing; it fails exactly when that directory cannot be created |
| VideoProcessor.AnalysisProgressFollowsStart | core/video_processor.py:67 | the initial signal and the frame loop's progress form a well-formed prefix of a run |
| VideoProcessor.Conclude | core/video_processor.py:196-238 | the write phase ends with the cancellation error (only for a stop seen at a polled checkpoint) or with the finished signal carrying the speed, the kept count and the output path, after writing the retained frames in the requested order |
| VideoProcessor.Process | core/video_processor.py:99-238 | a pixel error iff the analysis hit a raising comparison; a finished run wrote the reference retention set in order and reports its speed; a cancellation needs a stop seen at a polled checkpoint |
| VideoProcessor.Run | core/video_processor.py:59-252 | the signals start with progress 0, never decrease, and end with exactly one terminal signal; the input and metadata errors occur exactly in their cases; a finished run passed every setup check, has a positive frame count, and reports the speed of its kept count over that count at the effective frame rate; without a stop there is no cancellation |
| VideoProcessor.Interrupted | core/video_processor.py:105-243 | an analysis ended by a stop or a pixel error closes a well-formed run with that error and writes nothing |
| VideoProcessor.SetupFailure | core/video_processor.py:240-243 | a setup failure emits the initial progress and the error, and writes nothing |
| RetentionLaws.StopIndependentOfConfig | core/video_processor.py:104-193 | for two configurations that share the algorithm, the binarisation threshold and the blur size (so the pixel work has the same outcomes), where the analysis stops, and why, does not depend on the keep thresholds |
| RetentionLaws.StopPointIsFirst | core/video_processor.py:104-118 | a scan cannot stop before another scan of the same frames |
| RetentionLaws.StricterKeepsSubset | core/video_processor.py:120-186 | over any range, a stricter configuration keeps a subset of what a laxer one keeps |
| RetentionLaws.UnrecognisedKeepsOnlyEnds | core/video_processor.py:124-182 | with an unrecognised algorithm name, the retained frames of any range are exactly those among the first and the last frame of the video |
| RetentionLaws.StricterAnalysisKeepsSubset | core/video_processor.py:104-193 | a stricter analysis keeps a subset, and so no more frames |
| RetentionLaws.StricterRunKeepsFewer | core/video_processor.py:59-252 | a stricter run finishes exactly when a laxer run finishes, and keeps no more frames |
| RetentionLaws.MinAreaMonotone | core/video_processor.py:29 | raising `f_diff_min_area` never makes a finished run keep more |
| RetentionLaws.SsimThresholdMonotone | core/video_processor.py:30 | raising `ssim_threshold` never makes a finished run keep fewer |
| RetentionLaws.FlowThresholdMonotone | core/video_processor.py:38 | raising `flow_threshold` never makes a finished run keep more |
| RetentionLaws.ReversalKeepsMultiset | core/video_processor.py:207-208 | reversal writes the same frames, each as often |
| RetentionLaws.ReversalIsInvolution | core/video_processor.py:207-208 | reversing twice restores the source order |
| VideoProcessor.SpeedIsKeptShare | core/video_processor.py:229-231 | with a positive count and frame rate, the speed is kept / total × 100 |
| VideoProcessor.SpeedPercent | core/video_processor.py:229-231 | a frame count or frame rate of 0 or less gives speed 0; with `SpeedIsKeptShare` for the other branch |
| RetentionLaws.SpeedExamples | core/video_processor.py:229-231 | 40 of 100 frames at 30 fps give 40, and keeping every frame gives 100 |
| RetentionLaws.OneFrameVideo | core/video_processor.py:124-125 | a readable one-frame video finishes with one kept frame and a speed of 100 |
| RetentionLaws.CancelDuringAnalysis | core/video_processor.py:105-113 | a stop first seen at analysis checkpoint k ends the run after k processed frames, with the cancellation error and nothing written |
| BatchProcessor.ProcessedStem | core/batch_processor.py:59-60 | the output stem starts with "processed_" text and has no separator |
| BatchProcessor.OutputPathFor | core/batch_processor.py:59-61 | the output's file name is "processed_" plus the input's stem plus ".mp4" |
| BatchProcessor.OutputsShareDirectory | core/batch_processor.py:61 | all outputs of a batch are in the same directory |
| BatchProcessor.RecordOf | core/batch_processor.py:131-136 | a finished file is recorded as a success with its kept count, speed and output; an error as a failure with its reason |
| BatchProcessor.Relay | core/batch_processor.py:79-89 | the engine's signals are relayed one for one, never as overall progress, file start or batch end |
| BatchProcessor.ForwardsStop | core/batch_processor.py:31-35 | the stop reaches the current processor only when its thread is running |
| BatchProcessor.InnerStop | core/batch_processor.py:31-35 | the running file sees the stop, shifted to its own checkpoints, exactly when it is forwarded |
| BatchProcessor.Percents | core/batch_processor.py:109-110 | after the k-th file the overall progress is k × 100 / n rounded down, on exact rationals |
| BatchProcessor.WalkFrom | core/batch_processor.py:54-110 | the file loop runs at most the listed files, and a file announced but not run is within the list |
| BatchProcessor.NextCheck | core/batch_processor.py:54-96 | the batch's next checkpoint after some runs lies at least two checks per run beyond the first |
| BatchProcessor.ConsChecks | core/batch_processor.py:54-96 | numbering the checkpoints after a first run continues from that run's last checkpoint, for every prefix |
| BatchProcessor.WalkRespectsStop | core/batch_processor.py:54-96 | whether or not the stop reaches the running file, a file runs only when neither of its two batch checks has seen the stop; the loop ends before the last file only at a check that has seen it; and a file is left announced exactly when the second check saw the stop and the first did not |
| BatchProcessor.RespectsStopCons | core/batch_processor.py:54-96 | a file run after two checks that had not seen the stop keeps that stop law for the walk that follows it |
| BatchProcessor.WalkTerminates | core/batch_processor.py:54-110 | every run of the loop ends with a terminal signal |
| BatchProcessor.WalkWithoutStop | core/batch_processor.py:54-110 | without a stop, every file runs, failing ones included, in list order |
| BatchProcessor.WalkStopOnlyTruncates | core/batch_processor.py:54-96 | when the stop is never forwarded, the runs are a prefix of those of the same batch without a stop |
| BatchProcessor.WalkNeverCancels | core/batch_processor.py:31-35 | when the stop is never forwarded, no run ends cancelled, given a runner that cancels nothing without a stop |
| BatchProcessor.WalkCancelledOnlyLast | core/batch_processor.py:54-96 | when the stop is forwarded, a cancelled file is the last one that runs |
| BatchProcessor.FileEvents | core/batch_processor.py:63-110 | each file emits its start, the relayed signals, then exactly one overall-progress update |
| BatchProcessor.Records | core/batch_processor.py:81-89 | one record per file that ran, in list order, under its base name, and a cancellation exactly for a run that ended cancelled |
| BatchProcessor.RecordsOfPrefix | core/batch_processor.py:131-136 | the records of a prefix of the runs are a prefix of the records |
| BatchProcessor.EngineRunner | core/batch_processor.py:67-96 | every file runs through the engine with the batch's shared parameters, and every run ends with a terminal signal |
| BatchProcessor.WalkEvents | core/batch_processor.py:54-128 | the batch signals end with exactly one finished signal, and the overall progress is one update per file run |
| BatchProcessor.RunBatch | core/batch_processor.py:38-128 | an empty list only reports finished; an unusable output directory reports the error and finished; otherwise there is one record per run file, and the batch ends with exactly one finished signal |
| BatchProcessor.OutputDirReady | core/batch_processor.py:50-51 | an existing directory is used; a missing one only when it is named and can be created |
| BatchProcessor.RunAsWritten | core/batch_processor.py:38-128 | the batch as invoked, with `run()` called synchronously so the stop never reaches a file: one finished signal last, at most one record per file, each under its file's base name |
| BatchProcessor.RunForwarding | core/batch_processor.py:31-35 | the batch with the stop reaching the running file: one finished signal last, at most one record per file, each under its file's base name |
| BatchLaws.PercentsRise | core/batch_processor.py:109-110 | the overall progress never decreases and reaches 100 with the last file |
| BatchLaws.EveryFileRunsWithoutStop | core/batch_processor.py:54-110 | without a stop, every file gets the record of its own engine run, in list order |
| BatchLaws.OverallProgressReaches100 | core/batch_processor.py:108-110 | without a stop, there is one overall update per file, rising to exactly 100 |
| BatchLaws.StopBeforeFirstFile | core/batch_processor.py:55-57 | a stop before the batch starts runs nothing and only reports finished |
| BatchLaws.StopAfterAnnouncement | core/batch_processor.py:91-94 | a stop between announcing a file and running it leaves the announcement and no record |
| BatchLaws.AsWrittenStopOnlyTruncates | core/batch_processor.py:31-35 | as written, a stop only cuts the result list short |
| BatchLaws.AsWrittenNeverCancels | core/batch_processor.py:31-35 | as written, no record is ever a cancellation |
| BatchLaws.EngineNeverCancelsUnstopped | core/video_processor.py:105-216 | the engine given no stop never ends cancelled |
| BatchLaws.EngineCancelsWithinChecks | core/video_processor.py:105-221 | the engine reports a cancellation only for a stop seen at a checkpoint it polled |
| BatchLaws.ForwardingCancelledFileIsLast | core/batch_processor.py:31-35 | with the stop forwarded, a cancelled file is the last record |
| BatchLaws.OneFileWalk | core/batch_processor.py:54-96 | a one-file list runs its file once, with the stop as that run sees it |
| BatchLaws.StopDuringFileIgnored | core/batch_processor.py:31-35 | as written, a stop while the only file runs leaves its record as without a stop |
| BatchLaws.EngineCancelsDuringAnalysis | core/video_processor.py:105-113 | the engine, told of a stop during analysis, ends cancelled |
| BatchLaws.OneCancelledRecord | core/batch_processor.py:135-136 | a cancelled run is recorded as a cancellation failure |
| BatchLaws.StopDuringFileForwarded | core/batch_processor.py:31-35 | with the stop forwarded, the same stop cancels the file |
| BatchLaws.EngineFinishesWithoutFault | core/video_processor.py:105-238 | a file that opens, has valid metadata and a writable output, and whose pixel work never raises, finishes when no stop reaches it |
| BatchLaws.StopDuringFileStillSucceeds | core/batch_processor.py:31-35 | as written, such a file is recorded as a success whenever the stop comes during its run |
| BatchLaws.StillVideoSetting | core/batch_processor.py:19-25 | a batch setting whose every file is a readable three-frame video, opened and written without trouble, whose comparisons never raise and find no changed area |
| BatchLaws.StopIgnoredExample | core/batch_processor.py:31-35 | a concrete three-frame video, to any output directory: as written, a stop at any checkpoint of its run from the first analysis checkpoint on leaves one record, a success, exactly as without a stop |
| Settings.DefaultKeysListDefaults | utils/settings.py:17-35 | the key list the loop visits is exactly the keys of the defaults |
| Settings.FileExistsAfterReading | utils/settings.py:51-63 | the file is absent after reading iff it was missing or the corrupt file was renamed away |
| Settings.Merge | utils/settings.py:65-71 | the merge holds every default key and every loaded key; loaded values win, and the defaults fill the rest |
| Settings.FillMissing | utils/settings.py:73-81 | every listed key that is missing is added with its default and reported; present values are untouched |
| Settings.Load | utils/settings.py:45-85 | the settings are the defaults merged with what was read, and a save is requested iff the file is absent afterwards |
| Settings.Get | utils/settings.py:107 | the stored value, else the default, and nothing only for a key in neither |
| Settings.Set | utils/settings.py:110-113 | the key gets the new value and every other key keeps its value |
| Settings.LoadedSettingsCoverDefaults | utils/settings.py:45-85 | after loading every default key has a value; loaded values win; a failed read gives the defaults |
| Settings.GetAfterSet | utils/settings.py:107-113 | get after set returns the value set and leaves other keys' values alone |
| Settings.GetCoversDefaults | utils/settings.py:45-107 | get gives a value for every default key whatever was read, the default where the file lacked it |
| Settings.DefaultsAgreeWithEngine | utils/settings.py:24-34 | the stored defaults equal the engine's own defaults, and their blur sizes are already normalised |
| Dialogs.Clamp | ui/dialogs.py:137 | the clamped value is within the bounds, and a value within them is kept |
| Dialogs.MakeOddAndClamp | ui/dialogs.py:129-137 | the result is within the bounds (the lower bound when they cross), and an unparsable value gives the lower bound |
| Dialogs.MakeOddAndClampGivesOdd | ui/dialogs.py:133-137 | with odd bounds the result is odd; an odd value within them is kept, and an even one below the top goes up by one |
| Dialogs.MakeOddAndClampIdempotent | ui/dialogs.py:129-137 | correcting a corrected value changes nothing |
| Dialogs.SavedBlurUsedAsIs | ui/dialogs.py:129-137 | a blur size the dialog saves is one the engine uses unchanged |
| Dialogs.Clock | ui/dialogs.py:532-537 | the clock text is digits and colons, at least five characters, ending in a colon and two digits that give fewer than 60 seconds, and exactly five characters when the minutes are below 100; with `ClockRoundTrip` this fixes minutes and seconds |
| Dialogs.ClockRoundTrip | ui/dialogs.py:529-533 | reading the clock back gives max(0, ms) // 1000 seconds |
| Dialogs.UpdateTimeLabel | ui/dialogs.py:527-547 | a new label is the position's clock, " / ", and the duration's clock, or "--:--" without a duration; the label is left alone only when it already reads the full text, or, without a duration, the same position |
| Dialogs.LabelShowsTimes | ui/dialogs.py:527-547 | after the update the position part is the position's clock, and with a duration the label is both clocks |
| Dialogs.LabelReadsBack | ui/dialogs.py:527-547 | the label's position part reads back as the position in whole seconds |
| Dialogs.UpdateTimeLabelSettles | ui/dialogs.py:541-547 | a second update with the same times leaves the label alone |
| Dialogs.PreviewBlur | ui/dialogs.py:178 | the preview's blur size is odd and the given size or one more |
| Dialogs.PreviewBlurAgreesWithEngine | ui/dialogs.py:178 | for every non-negative size the preview smooths as the engine does, and below zero it differs |
| Dialogs.Drawn | ui/dialogs.py:210 | the drawn contours are those whose area exceeds min area |
| Dialogs.PreviewVerdictMatchesEngine | ui/dialogs.py:209-210 | the preview keeps iff the engine's frame-difference test keeps, iff at least one contour is drawn |
| Dialogs.GeneratePreview | ui/dialogs.py:196-217 | an open failure and a too-short video are reported exactly in their cases; the pair read is the requested one or the last pair, and the adjustment is flagged exactly when needed; the verdict is the engine's |
| Dialogs.LongVideoPreviewsDefaultPair | ui/dialogs.py:179-201 | a video of at least 102 frames previews frames 100 and 101 without adjustment |
| MainWindow.UpdateSliderFromEdit | ui/main_window.py:457-472 | the edit always reads back as the slider's value; a non-number restores the slider's value; a number moves the slider to its corrected value, and the edit is rewritten only with that value's text |
| MainWindow.EditValue | ui/main_window.py:460-464 | the corrected value is within the bounds; an in-range value (odd, where odd values are wanted) is kept; with odd bounds an odd slider always gets an odd value |
| MainWindow.EditSettles | ui/main_window.py:457-468 | finishing the edit again changes nothing |
| MainWindow.BlurEditAgreesWithSettingsDialog | ui/main_window.py:457-468 | a typed blur size ends on the value the settings dialog would save for it |
| MainWindow.AlgoSuffix | ui/main_window.py:682 | each algorithm has its suffix, and "proc" is used exactly for an unknown name |
| MainWindow.AutoName | ui/main_window.py:681-683 | the proposed name is a single path component |
| MainWindow.AutoOutputPath | ui/main_window.py:676-691 | there is no output without an input; otherwise the output is the proposed name in the input's directory |
| MainWindow.AutoOutputIsNotInput | ui/main_window.py:676-683 | the automatic output never overwrites its input |
| MainWindow.AutoNameIsNotBasename | ui/main_window.py:681-683 | the proposed name differs from the input's name |
| MainWindow.AutoOutputsDifferPerAlgorithm | ui/main_window.py:682-683 | algorithms with different suffixes never share an automatic output |
| MainWindow.SaveDialogStart | ui/main_window.py:693-703 | without an input the dialog proposes "output_processed.mp4" |
| MainWindow.SaveDialogProposesAutoOutput | ui/main_window.py:698-703 | with an input the save dialog proposes exactly the automatic output |
| MainWindow.EnsureMp4 | ui/main_window.py:707 | the name ends in ".mp4" in any letter case, extends the chosen name, and is unchanged iff it already ended so |
| MainWindow.EnsureMp4Idempotent | ui/main_window.py:707 | applying the rule twice is applying it once |
| MainWindow.SelectOutput | ui/main_window.py:705-711 | a cancelled dialog changes nothing; otherwise the output ends in ".mp4" and its directory is stored |
| MainWindow.FreshContents | ui/main_window.py:726-728 | what is added is exactly the candidates not listed, each once |
| MainWindow.ListStaysDuplicateFree | ui/main_window.py:726-731 | adding keeps a duplicate-free list duplicate-free |
| MainWindow.AddVideos | ui/main_window.py:722-734 | the fresh files are appended, and the first chosen file's directory is stored exactly when something was added |
| MainWindow.DroppedVideos | ui/main_window.py:370-374 | a drop accepts exactly the local files with a video extension |
| MainWindow.DropVideos | ui/main_window.py:366-379 | a drop adds exactly the accepted videos not listed, each once |
| MainWindow.DropKeepsListDuplicateFree | ui/main_window.py:366-379 | a duplicate-free list stays duplicate-free after a drop |
| MainWindow.UpperCaseExtensionAccepted | ui/main_window.py:374 | extensions are matched regardless of letter case |
| MainWindow.OtherDropsRefused | ui/main_window.py:371-374 | other extensions and non-local URLs are refused |
| MainWindow.PathOfLabel | ui/main_window.py:1156 | the recovered path is a prefix of the label, and the whole label iff it has no " (" |
| MainWindow.StatusText | ui/main_window.py:1175-1189 | a pending item shows nothing after its path, a done or failed one a text that closes the parenthesis |
| MainWindow.ItemLabel | ui/main_window.py:1175-1189 | the label starts with the path; it is the bare path exactly for a pending item, otherwise the path, " (" and a status ending in ")" |
| MainWindow.PathOfLabelRoundTrip | ui/main_window.py:1171-1175 | a label's path is recovered for every path without " (" |
| MainWindow.PathsOfLabels | ui/main_window.py:369 | the listed paths are the labels' recovered paths, one for one |
| MainWindow.MarkFile | ui/main_window.py:1169-1191 | the first item whose recovered path has the file's base name is relabelled with that path and the new status, and no other item changes |
| MainWindow.MarkReplacesStatus | ui/main_window.py:1171-1189 | marking a file again replaces its status instead of stacking one |
| MainWindow.StartBatchAsWritten | ui/main_window.py:1024-1028 | the batch receives one path per listed item |
| MainWindow.StartBatchReadsListedPaths | ui/main_window.py:1024-1028 | for paths without " (" the batch receives exactly the listed paths |
| MainWindow.ParenthesisedPathIsCut | ui/main_window.py:1024 | a path containing " (" is cut: "/v/clip (1).mp4" is handed over as "/v/clip" |
| MainWindow.ParenthesisedPathAddedTwice | ui/main_window.py:723-728 | as written, the same parenthesised path is added a second time |
| MainWindow.StartBatch | ui/main_window.py:1024-1028 | corrected: the batch receives the stored paths and every status is reset |
| MainWindow.CorrectedAddNeverDuplicates | ui/main_window.py:723-728 | corrected: a listed path is never added again, whatever its characters |
| MainWindow.MarkItem | ui/main_window.py:1169-1191 | corrected: the first item with the file's base name gets the status, no other item changes, and no path changes |
| MainWindow.SameBaseNameMarksFirst | ui/main_window.py:1172 | of two files with the same base name, the outcome is always shown on the first |
| MainWindow.ParenthesisedPathKept | ui/main_window.py:1024 | corrected: the parenthesised path is handed over unchanged |

## Left out

- The pixel work (grey conversion, blur, contours, SSIM, Farneback flow) is the parameter `measure`; floating-point image arithmetic is out of scope.
- Decoding, encoding, `os.makedirs`, `os.rename` and the JSON file are inputs (`Source`, `LoadOutcome`, the directory flags); the save itself (settings.py 88-97) only matters as "a save is requested".
- Threads and signals: a run is a pure function of its stop index, and signals are a returned sequence. The queued delivery to the window is not modelled.
- The `stop()` flag reset at the start of `run` (video_processor.py 61, batch_processor.py 40) is covered by numbering checkpoints from the run's start; a stop before the run is not modelled.
- The error messages, log calls and the write-progress logging (video_processor.py 212, 224-226) are left out; failures are the `Failure` reasons.
- An exception from the pixel work is modelled only for middle frames; the first frame's grey conversion and blur are assumed not to raise.
- Exceptions outside the listed ones (`ImportError`, unexpected `Exception`) end the run with an error in the source; they are not modelled separately.
- VideoProcessor.SpeedPercent: the speed is computed on exact reals, not IEEE doubles.
- VideoProcessor.Percent: `int((done / total) * 100)` is computed on exact rationals, not IEEE doubles, so the value shown can be one higher than the program's (for 29 of 100 the program computes 28, the model 29).
- VideoProcessor.AnalysisProgress: its percentages are those of `VideoProcessor.Percent`, so each can be one higher than the program's.
- BatchProcessor.Percents: `int(((i + 1) / total_files) * 100)` is computed on exact rationals, so a value can be one higher than the program's.
- BatchProcessor.WalkFrom: its own contract bounds only the number of runs; how a stop cuts the loop short is stated separately by `BatchProcessor.WalkRespectsStop`, which keeps the other proofs about the loop small.
- MainWindow.ItemLabel: the speed text `{tw_speed:.1f}` is an input string; float formatting is not modelled.
- Text.ParseInt: `int()` is modelled for ASCII signs, digits and surrounding whitespace; underscores and non-ASCII digits are not accepted.
- Text.Lower: lower-casing is ASCII only.
- Paths: POSIX path rules (`/` separator); Windows drive letters and `\` are not modelled.
- Settings.Load: a JSON file whose top level is not an object, and a stored `null`, are not modelled; `Other` stands for any other JSON value.
- BatchProcessor.RunAsWritten and BatchProcessor.RunForwarding: their own contracts give only the shape of the result; what a stop does to each is stated in `BatchLaws`.
- The remaining window and dialog code (widgets, the VLC player, presets, the watermark, helpers and `main`) is not part of this model.

## Findings

| source | as written | input that shows it | evidently intended | confidence | as-written member | corrected member |
|---|---|---|---|---|---|---|
| core/batch_processor.py:31-35 | `stop` forwards the request only if `current_processor.isRunning()`, but the processor is started with `run()` on the batch's own thread (line 96), so its thread never runs and the request never reaches it | a one-file batch, stop requested while the file is analysed: the file runs to completion and is recorded as a success | the running file is cancelled at its next checkpoint, and no further file starts | not executed | BatchLaws.StopDuringFileIgnored | BatchLaws.StopDuringFileForwarded |
| ui/main_window.py:1024 | the path of a list item is recovered with `text().split(" (")[0]` (also at lines 369, 723, 1156, 1171, 1186) | the path "/v/clip (1).mp4": the batch is handed "/v/clip", the item is relabelled "/v/clip", and adding "/v/clip (1).mp4" again adds a duplicate | each item keeps its path, so every path survives unchanged | not executed | MainWindow.ParenthesisedPathIsCut | MainWindow.CorrectedAddNeverDuplicates |

=== FILE: batch_laws.dfy ===
/** Laws of the batch orchestrator: what runs without a stop, how far a stop
    reaches, the overall progress, and the discrepancy between the stop
    request as written and as `stop` intends it. */
module BatchLaws {
  import opened Wrappers
  import Paths
  import opened Detector
  import opened VideoProcessor
  import opened BatchProcessor
  import RetentionLaws

  /** The overall progress never decreases, and reaches 100 after the last
      file of the list. */
  lemma PercentsRise(i: nat, m: nat, n: nat)
    requires i + m <= n
    ensures forall a, b :: 0 <= a <= b < m ==> Percents(i, m, n)[a] <= Percents(i, m, n)[b]
    ensures m > 0 && i + m == n ==> Percents(i, m, n)[m - 1] == 100
  {
    var r := Percents(i, m, n);
    forall a, b | 0 <= a <= b < m
      ensures r[a] <= r[b]
    {
      PercentMonotone(i + a + 1, i + b + 1, n);
    }
  }

  /** Without a stop request a failing file does not end the batch: every
      file of the list gets the record of its own engine run, in list order. */
  lemma EveryFileRunsWithoutStop(s: Setting, files: seq<string>, dirExists: bool, dirCreatable: bool, itr: bool)
    requires |files| > 0 && OutputDirReady(s.outputDir, dirExists, dirCreatable)
    ensures |RunBatch(s, files, dirExists, dirCreatable, None, itr).records| == |files|
    ensures forall j :: 0 <= j < |files| ==>
      RunBatch(s, files, dirExists, dirCreatable, None, itr).records[j]
      == RecordOf(Paths.Basename(files[j]), Last(FileRun(s, files[j], None).events))
  {
    var w := BatchWalk(s, files, None, itr);
    var r := RunBatch(s, files, dirExists, dirCreatable, None, itr);
    WalkWithoutStop(EngineRunner(s), files, 0, 0, itr);
    assert r.records == Records(files, w.runs);
    forall j | 0 <= j < |files|
      ensures r.records[j] == RecordOf(Paths.Basename(files[j]), Last(FileRun(s, files[j], None).events))
    {
      assert w.runs[j] == EngineRunner(s)(files[0 + j], None);
      assert r.records[j] == RecordOf(Paths.Basename(files[j]), Last(w.runs[j].events));
    }
  }

  /** Without a stop request the overall progress rises to exactly 100, one
      update per file. */
  lemma OverallProgressReaches100(s: Setting, files: seq<string>, dirExists: bool, dirCreatable: bool, itr: bool)
    requires |files| > 0 && OutputDirReady(s.outputDir, dirExists, dirCreatable)
    ensures var p := Overall(RunBatch(s, files, dirExists, dirCreatable, None, itr).events);
            && |p| == |files|
            && (forall a, b :: 0 <= a <= b < |p| ==> p[a] <= p[b])
            && p[|p| - 1] == 100
  {
    EveryFileRunsWithoutStop(s, files, dirExists, dirCreatable, itr);
    PercentsRise(0, |files|, |files|);
  }

  /** A stop requested before the batch starts runs nothing. */
  lemma StopBeforeFirstFile(s: Setting, files: seq<string>, dirExists: bool, dirCreatable: bool, itr: bool)
    requires |files| > 0 && OutputDirReady(s.outputDir, dirExists, dirCreatable)
    ensures RunBatch(s, files, dirExists, dirCreatable, Some(0), itr) == BatchResult([BatchFinished], [])
  {
    assert BatchWalk(s, files, Some(0), itr) == Walk([], false);
  }

  /** A stop requested after the first file was announced but before its run
      leaves the announcement and no record. */
  lemma StopAfterAnnouncement(s: Setting, files: seq<string>, dirExists: bool, dirCreatable: bool, itr: bool)
    requires |files| > 0 && OutputDirReady(s.outputDir, dirExists, dirCreatable)
    ensures RunBatch(s, files, dirExists, dirCreatable, Some(1), itr)
            == BatchResult([FileStarted(Paths.Basename(files[0])), BatchFinished], [])
  {
    assert BatchWalk(s, files, Some(1), itr) == Walk([], true);
  }

  /** As written, a stop only cuts the list short: the records are a prefix
      of those of the same batch without a stop. */
  lemma AsWrittenStopOnlyTruncates(s: Setting, files: seq<string>, dirExists: bool, dirCreatable: bool,
                                   stopAt: Option<nat>)
    ensures IsPrefix(RunAsWritten(s, files, dirExists, dirCreatable, stopAt).records,
                     RunAsWritten(s, files, dirExists, dirCreatable, None).records)
  {
    if |files| > 0 && OutputDirReady(s.outputDir, dirExists, dirCreatable) {
      var cut := BatchWalk(s, files, stopAt, false).runs;
      var full := BatchWalk(s, files, None, false).runs;
      WalkStopOnlyTruncates(EngineRunner(s), files, 0, stopAt, 0);
      RecordsOfPrefix(files, cut, full);
    }
  }

  /** As written, no record is ever a cancellation, whenever the stop comes. */
  lemma AsWrittenNeverCancels(s: Setting, files: seq<string>, dirExists: bool, dirCreatable: bool,
                              stopAt: Option<nat>)
    ensures var r := RunAsWritten(s, files, dirExists, dirCreatable, stopAt).records;
            forall j :: 0 <= j < |r| ==> r[j].Succeeded? || r[j].failure != Cancelled
  {
    if |files| > 0 && OutputDirReady(s.outputDir, dirExists, dirCreatable) {
      EngineNeverCancelsUnstopped(s);
      WalkNeverCancels(EngineRunner(s), files, 0, stopAt, 0);
    }
  }

  /** The engine, given no stop, never ends cancelled. */
  lemma EngineNeverCancelsUnstopped(s: Setting)
    ensures NeverCancelsUnstopped(EngineRunner(s))
  {
    forall path ensures !EndsCancelled(FileRun(s, path, None)) {
    }
  }

  lemma EngineCancelsWithinChecks(s: Setting)
    ensures CancelsWithinChecks(EngineRunner(s))
  {
  }

  /** With the stop forwarded, a cancelled file is the last one in the
      result list. */
  lemma ForwardingCancelledFileIsLast(s: Setting, files: seq<string>, dirExists: bool, dirCreatable: bool,
                                      stopAt: Option<nat>)
    ensures var r := RunForwarding(s, files, dirExists, dirCreatable, stopAt).records;
            forall j :: 0 <= j < |r| - 1 ==> r[j].Succeeded? || r[j].failure != Cancelled
  {
    if |files| > 0 && OutputDirReady(s.outputDir, dirExists, dirCreatable) {
      EngineCancelsWithinChecks(s);
      WalkCancelledOnlyLast(EngineRunner(s), files, 0, stopAt, 0);
    }
  }

  /** A one-file list runs its file once, with the stop as that file's run
      sees it, when the stop does not come before the run. */
  lemma OneFileWalk(runFile: Runner, path: string, stopAt: Option<nat>, itr: bool)
    requires stopAt.None? || stopAt.value >= 2
    ensures WalkFrom(runFile, [path], 0, stopAt, 0, itr) == Walk([runFile(path, InnerStop(stopAt, 2, itr))], false)
  {
    var o := runFile(path, InnerStop(stopAt, 2, itr));
    assert WalkFrom(runFile, [path], 1, stopAt, 2 + o.checks, itr) == Walk([], false);
  }

  /** The discrepancy, as written: a stop requested while the only file runs
      (at any of its engine's checkpoints) leaves its record exactly as without
      a stop. */
  lemma StopDuringFileIgnored(s: Setting, path: string, dirExists: bool, dirCreatable: bool, k: nat)
    requires OutputDirReady(s.outputDir, dirExists, dirCreatable)
    ensures RunAsWritten(s, [path], dirExists, dirCreatable, Some(k + 2)).records
            == RunAsWritten(s, [path], dirExists, dirCreatable, None).records
            == [RecordOf(Paths.Basename(path), Last(FileRun(s, path, None).events))]
  {
    OneFileWalk(EngineRunner(s), path, Some(k + 2), false);
    OneFileWalk(EngineRunner(s), path, None, false);
  }

  /** The file opens, its metadata is valid, its output can be written, and
      its analysis reaches the k-th checkpoint without a pixel error. */
  predicate AnalysedUpTo(s: Setting, path: string, k: nat) {
    var src := s.open(path);
    && src.inputOpened && ValidMetadata(src) && !OutputDirFails(JobFor(s, path), src) && src.writerOpened
    && k < src.frameCount && k <= |src.frames|
    && forall j :: 0 <= j < k ==> !FaultAt(src.frameCount, src.frames, s.measure, j)
  }

  /** The engine, told of a stop at its k-th checkpoint while analysing,
      ends cancelled. */
  lemma EngineCancelsDuringAnalysis(s: Setting, path: string, k: nat)
    requires AnalysedUpTo(s, path, k)
    ensures EndsCancelled(EngineRunner(s)(path, Some(k)))
  {
    var src, job := s.open(path), JobFor(s, path);
    RetentionLaws.CancelDuringAnalysis(job, src, s.measure, k);
    var o := Run(job, src, s.measure, Some(k));
    assert Last(o.events) == Error(Cancelled);
    assert EngineRunner(s)(path, Some(k)) == o;
  }

  /** A one-file batch whose file's run ends cancelled records exactly that. */
  lemma OneCancelledRecord(path: string, o: Outcome)
    requires Terminates(o) && EndsCancelled(o)
    ensures Records([path], [o]) == [Failed(Paths.Basename(path), Cancelled)]
  {
    assert Last(o.events) == Error(Cancelled);
  }

  /** The discrepancy, as intended: forwarded, the same stop cancels the file
      while it is being analysed. */
  lemma StopDuringFileForwarded(s: Setting, path: string, dirExists: bool, dirCreatable: bool, k: nat)
    requires OutputDirReady(s.outputDir, dirExists, dirCreatable)
    requires AnalysedUpTo(s, path, k)
    ensures RunForwarding(s, [path], dirExists, dirCreatable, Some(k + 2)).records
            == [Failed(Paths.Basename(path), Cancelled)]
  {
    OneFileWalk(EngineRunner(s), path, Some(k + 2), true);
    assert InnerStop(Some(k + 2), 2, true) == Some(k);
    var o := EngineRunner(s)(path, Some(k));
    assert BatchWalk(s, [path], Some(k + 2), true).runs == [o];
    EngineCancelsDuringAnalysis(s, path, k);
    OneCancelledRecord(path, o);
  }

  /** A file that opens, has valid metadata and a writable output, and whose
      pixel work never raises, finishes when no stop reaches it. */
  lemma EngineFinishesWithoutFault(s: Setting, path: string)
    requires s.open(path).inputOpened && ValidMetadata(s.open(path))
    requires !OutputDirFails(JobFor(s, path), s.open(path)) && s.open(path).writerOpened
    requires forall a, b :: s.measure(a, b).Compared?
    ensures Last(FileRun(s, path, None).events).Finished?
  {
    var src, job := s.open(path), JobFor(s, path);
    var scan := ScanFrom(ResolveConfig(job.algorithm, job.params), src.frameCount, src.frames, s.measure, None, 0, None);
    assert scan == Analyse(ResolveConfig(job.algorithm, job.params), src.frameCount, src.frames, s.measure, None);
    assert scan.stop != DetectorFault;
    var o := Process(job, src, s.measure, None);
    assert FileRun(s, path, None) == o;
  }

  /** One three-frame 2x2 video with no change between frames, opened and
      written without trouble, processed by frame difference into `out`. */
  function StillVideoSetting(out: string): (s: Setting)
    ensures s.outputDir == out && s.algorithm == AlgoFrameDiff
    ensures forall path :: s.open(path).inputOpened && ValidMetadata(s.open(path)) && s.open(path).frameCount == 3
    ensures forall path :: s.open(path).outputDirExists && s.open(path).writerOpened
    ensures forall a, b :: s.measure(a, b).Compared? && s.measure(a, b).m.areas == []
  {
    Setting(out, AlgoFrameDiff, Params(None, None, None, None, None, None, None), false,
            p => Source(true, 3, 30.0, 2, 2, true, true, true, [Frame([0]), Frame([0]), Frame([0])]),
            (a, b) => Compared(Measures([], true, 2, 2, 1.0, 0.0)))
  }

  /** As written, a file whose pixel work never raises is recorded as a
      success whenever the stop comes during its run. */
  lemma StopDuringFileStillSucceeds(s: Setting, path: string, dirExists: bool, dirCreatable: bool, k: nat)
    requires OutputDirReady(s.outputDir, dirExists, dirCreatable)
    requires s.open(path).inputOpened && ValidMetadata(s.open(path))
    requires !OutputDirFails(JobFor(s, path), s.open(path)) && s.open(path).writerOpened
    requires forall a, b :: s.measure(a, b).Compared?
    ensures |RunAsWritten(s, [path], dirExists, dirCreatable, Some(k + 2)).records| == 1
    ensures RunAsWritten(s, [path], dirExists, dirCreatable, Some(k + 2)).records[0].Succeeded?
  {
    StopDuringFileIgnored(s, path, dirExists, dirCreatable, k);
    EngineFinishesWithoutFault(s, path);
  }

  /** A concrete instance, as written: a stop requested at any checkpoint of
      the only file's run, from its first analysis checkpoint on, leaves that
      file recorded as a success, exactly as without a stop. */
  lemma StopIgnoredExample(out: string, k: nat)
    ensures RunAsWritten(StillVideoSetting(out), ["in.mp4"], true, true, Some(k + 2)).records
            == RunAsWritten(StillVideoSetting(out), ["in.mp4"], true, true, None).records
    ensures |RunAsWritten(StillVideoSetting(out), ["in.mp4"], true, true, Some(k + 2)).records| == 1
    ensures RunAsWritten(StillVideoSetting(out), ["in.mp4"], true, true, Some(k + 2)).records[0].Succeeded?
  {
    var s := StillVideoSetting(out);
    StopDuringFileIgnored(s, "in.mp4", true, true, k);
    StopDuringFileStillSucceeds(s, "in.mp4", true, true, k);
  }
}

=== FILE: batch_processor.dfy ===
/** The batch orchestrator of core/batch_processor.py (`BatchProcessor.run`,
    `stop` and the two result handlers). Files run one after another, each
    through the retention engine to completion, in list order. The stop request
    arrives as the index of the first checkpoint, in the batch's global order,
    that follows it: per file, one check before setting the file up, one before
    running it, then the checkpoints the engine polls while it runs. */
module BatchProcessor {
  import opened Wrappers
  import Paths
  import opened Detector
  import opened VideoProcessor

  /** `processed_` and the stem of the input's file name. */
  function ProcessedStem(videoPath: string): (r: string)
    ensures |r| > 0 && r[0] == 'p' && Paths.Sep !in r
  {
    var stem := Paths.Stem(videoPath);
    Paths.SepFreeConcat("processed_", stem);
    "processed_" + stem
  }

  /** `f"processed_{os.path.splitext(base_filename)[0]}.mp4"` joined to the
      output directory. */
  function OutputPathFor(outputDir: string, videoPath: string): (r: string)
    ensures Paths.Basename(r) == ProcessedStem(videoPath) + ".mp4"
    ensures Paths.Stem(r) == ProcessedStem(videoPath)
  {
    Paths.StemOfJoin(outputDir, ProcessedStem(videoPath), ".mp4");
    Paths.Join(outputDir, ProcessedStem(videoPath) + ".mp4")
  }

  /** All outputs of a batch go to the same directory. */
  lemma OutputsShareDirectory(outputDir: string, a: string, b: string)
    ensures Paths.Dirname(OutputPathFor(outputDir, a)) == Paths.Dirname(OutputPathFor(outputDir, b))
  {
    var na, nb := ProcessedStem(a) + ".mp4", ProcessedStem(b) + ".mp4";
    assert Paths.Sep !in na && Paths.Sep !in nb;
    Paths.DirnameOfJoin(outputDir, na, nb);
  }

  /** The outcome of one file, as the two handlers append it. */
  datatype Record =
    | Succeeded(filename: string, kept: nat, speed: real, output: string)
    | Failed(filename: string, failure: Failure)

  /** The batch's signals. */
  datatype BatchEvent =
    | OverallProgress(percent: int)
    | FileProgress(percent: int, current: int, total: int)
    | FileStarted(name: string)
    | FileFinished(name: string, speed: real, kept: nat, output: string)
    | FileError(name: string, failure: Failure)
    | BatchError        // an `OSError` creating the output directory
    | BatchFinished

  /** What the two handlers append for the engine's terminal signal. */
  function RecordOf(name: string, e: Event): (r: Record)
    requires IsTerminal(e)
    ensures r.filename == name
    ensures r.Succeeded? <==> e.Finished?
    ensures e.Error? ==> r == Failed(name, e.failure)
    ensures e.Finished? ==> r == Succeeded(name, e.kept, e.speed, e.output)
  {
    match e
    case Finished(speed, kept, output) => Succeeded(name, kept, speed, output)
    case Error(f) => Failed(name, f)
  }

  /** The engine's signals as the batch passes them on: progress as current-file
      progress, the terminal signal as `file_finished` or `file_error`. */
  function Relay(name: string, ev: seq<Event>): (r: seq<BatchEvent>)
    ensures |r| == |ev|
    ensures forall k :: 0 <= k < |r| ==> !r[k].OverallProgress? && !r[k].BatchFinished? && !r[k].FileStarted?
  {
    seq(|ev|, k requires 0 <= k < |ev| =>
      match ev[k]
      case Progress(p, c, t) => FileProgress(p, c, t)
      case Finished(speed, kept, output) => FileFinished(name, speed, kept, output)
      case Error(f) => FileError(name, f))
  }

  /** `BatchProcessor.stop` sets the batch flag and passes the request on to
      the current processor only when that processor's thread is running. */
  function ForwardsStop(hasCurrent: bool, currentThreadRunning: bool): (forwarded: bool)
    ensures forwarded ==> currentThreadRunning
  {
    hasCurrent && currentThreadRunning
  }

  /** The stop request as the engine of the file whose run begins at global
      checkpoint `g` sees it: shifted to the engine's own numbering when
      forwarded, never seen otherwise. */
  function InnerStop(stopAt: Option<nat>, g: nat, innerThreadRunning: bool): (r: Option<nat>)
    ensures r.Some? ==> stopAt.Some? && ForwardsStop(true, innerThreadRunning) && r.value + g == stopAt.value
    ensures stopAt.Some? && stopAt.value >= g && innerThreadRunning ==> r.Some?
    ensures !innerThreadRunning ==> r.None?
  {
    if ForwardsStop(true, innerThreadRunning) && stopAt.Some? && stopAt.value >= g then Some(stopAt.value - g)
    else None
  }

  /** The parameters every file of the batch shares, and the environment. */
  datatype Setting = Setting(
    outputDir: string,
    algorithm: string,
    params: Params,
    reverse: bool,
    open: string -> Source,
    measure: (Frame, Frame) -> Comparison)

  function JobFor(s: Setting, path: string): Job {
    Job(path, OutputPathFor(s.outputDir, path), s.algorithm, s.params, s.reverse)
  }

  /** The engine's outcome for one file of the batch. */
  function FileRun(s: Setting, path: string, cancelAt: Option<nat>): (o: Outcome)
    ensures Terminates(o)
  {
    VideoProcessor.Run(JobFor(s, path), s.open(path), s.measure, cancelAt)
  }

  /** An engine run ends in exactly one terminal signal. */
  predicate Terminates(o: Outcome) {
    |o.events| > 0 && IsTerminal(o.events[|o.events| - 1])
  }

  /** A file runner: the engine run for a path, given the stop index as that
      run numbers its checkpoints. */
  type Runner = (string, Option<nat>) -> Outcome

  ghost predicate AlwaysTerminates(runFile: Runner) {
    forall path, cancelAt :: Terminates(runFile(path, cancelAt))
  }

  /** The percentages of the overall-progress signals, in order. */
  function Overall(ev: seq<BatchEvent>): seq<int> {
    if |ev| == 0 then []
    else (if ev[0].OverallProgress? then [ev[0].percent] else []) + Overall(ev[1..])
  }

  lemma {:induction false} OverallOfConcat(a: seq<BatchEvent>, b: seq<BatchEvent>)
    ensures Overall(a + b) == Overall(a) + Overall(b)
    decreases |a|
  {
    if |a| > 0 {
      OverallOfConcat(a[1..], b);
      assert (a + b)[1..] == a[1..] + b;
      assert (a + b)[0] == a[0];
    } else {
      assert a + b == b;
    }
  }

  lemma {:induction false} OverallOfNone(a: seq<BatchEvent>)
    requires forall k :: 0 <= k < |a| ==> !a[k].OverallProgress?
    ensures Overall(a) == []
    decreases |a|
  {
    if |a| > 0 {
      OverallOfNone(a[1..]);
    }
  }

  /** The overall percentages after files `i`, ..., `i + m - 1` of `n`:
      `int((k + 1) / n * 100)` after the k-th. */
  function Percents(i: nat, m: nat, n: nat): (r: seq<int>)
    requires i + m <= n
    ensures |r| == m
    ensures forall k :: 0 <= k < m ==> r[k] == Percent(i + k + 1, n)
    decreases m
  {
    if m == 0 then [] else [Percent(i + 1, n)] + Percents(i + 1, m - 1, n)
  }

  /** The global index of the batch's next checkpoint once `runs` have run
      from checkpoint `g` on: two batch checks per file, then the checkpoints
      its engine polled. */
  function NextCheck(runs: seq<Outcome>, g: nat): (r: nat)
    ensures r >= g + 2 * |runs|
    decreases |runs|
  {
    if |runs| == 0 then g else NextCheck(runs[1..], g + 2 + runs[0].checks)
  }

  /** Numbering the checkpoints of `[o] + rest` from `g` is numbering those of
      `rest` from the checkpoint after `o`'s run. */
  lemma ConsChecks(o: Outcome, rest: seq<Outcome>, g: nat)
    ensures NextCheck(([o] + rest)[..0], g) == g
    ensures NextCheck([o] + rest, g) == NextCheck(rest, g + 2 + o.checks)
    ensures forall j :: 1 <= j <= |rest| + 1 ==>
      NextCheck(([o] + rest)[..j], g) == NextCheck(rest[..j - 1], g + 2 + o.checks)
  {
    assert ([o] + rest)[..0] == [];
    assert ([o] + rest)[1..] == rest;
    forall j | 1 <= j <= |rest| + 1
      ensures NextCheck(([o] + rest)[..j], g) == NextCheck(rest[..j - 1], g + 2 + o.checks)
    {
      assert ([o] + rest)[..j][0] == o;
      assert ([o] + rest)[..j][1..] == rest[..j - 1];
    }
  }

  /** No file of `runs` ran after one of its two batch checks had seen the
      stop. */
  predicate RunsOnlyUnseen(runs: seq<Outcome>, stopAt: Option<nat>, g: nat) {
    forall j :: 0 <= j < |runs| ==>
      !CancelSeen(stopAt, NextCheck(runs[..j], g)) && !CancelSeen(stopAt, NextCheck(runs[..j], g) + 1)
  }

  /** A walk over `remaining` files stops short only at a batch check that has
      seen the stop, and leaves a file announced only when the stop was seen
      by its second check and not its first. */
  predicate EndsOnlyWhenSeen(w: Walk, remaining: nat, stopAt: Option<nat>, g: nat) {
    && (|w.runs| < remaining ==>
          CancelSeen(stopAt, NextCheck(w.runs, g)) || CancelSeen(stopAt, NextCheck(w.runs, g) + 1))
    && (w.announcedOnly <==>
          |w.runs| < remaining && !CancelSeen(stopAt, NextCheck(w.runs, g)) && CancelSeen(stopAt, NextCheck(w.runs, g) + 1))
  }

  /** The files that ran, from file `i` on, each with its engine outcome;
      `announcedOnly` when the stop came between announcing the next file and
      running it. */
  datatype Walk = Walk(runs: seq<Outcome>, announcedOnly: bool)

  /** The file loop from file `i` on, with `g` the global index of the next
      checkpoint: check the flag, announce the file, check again, run it, go
      on with the next file whatever the outcome. A file runs only when
      neither of its two checks has seen the stop, and the loop ends early
      only at a check that has seen it. */
  function WalkFrom(runFile: Runner, files: seq<string>, i: nat, stopAt: Option<nat>, g: nat,
                    innerThreadRunning: bool): (w: Walk)
    requires i <= |files|
    ensures i + |w.runs| <= |files|
    ensures w.announcedOnly ==> i + |w.runs| < |files|
    decreases |files| - i
  {
    if i == |files| || CancelSeen(stopAt, g) then Walk([], false)
    else if CancelSeen(stopAt, g + 1) then Walk([], true)
    else
      var o := runFile(files[i], InnerStop(stopAt, g + 2, innerThreadRunning));
      var rest := WalkFrom(runFile, files, i + 1, stopAt, g + 2 + o.checks, innerThreadRunning);
      Walk([o] + rest.runs, rest.announcedOnly)
  }

  /** The stop law of the file loop, whether or not the stop reaches the
      running file: a file runs only when neither of its two batch checks has
      seen the stop, and the loop ends before the last file only at a check
      that has seen it. */
  lemma {:induction false} WalkRespectsStop(runFile: Runner, files: seq<string>, i: nat, stopAt: Option<nat>,
                                            g: nat, itr: bool)
    requires i <= |files|
    ensures RunsOnlyUnseen(WalkFrom(runFile, files, i, stopAt, g, itr).runs, stopAt, g)
    ensures EndsOnlyWhenSeen(WalkFrom(runFile, files, i, stopAt, g, itr), |files| - i, stopAt, g)
    decreases |files| - i
  {
    if i < |files| && !CancelSeen(stopAt, g) && !CancelSeen(stopAt, g + 1) {
      var o := runFile(files[i], InnerStop(stopAt, g + 2, itr));
      var rest := WalkFrom(runFile, files, i + 1, stopAt, g + 2 + o.checks, itr);
      WalkRespectsStop(runFile, files, i + 1, stopAt, g + 2 + o.checks, itr);
      RespectsStopCons(o, rest, |files| - i, stopAt, g);
    }
  }

  /** One more file, run after two checks that had not seen the stop, keeps
      the stop law of the walk after it. */
  lemma RespectsStopCons(o: Outcome, rest: Walk, remaining: nat, stopAt: Option<nat>, g: nat)
    requires remaining > 0 && !CancelSeen(stopAt, g) && !CancelSeen(stopAt, g + 1)
    requires RunsOnlyUnseen(rest.runs, stopAt, g + 2 + o.checks)
    requires EndsOnlyWhenSeen(rest, remaining - 1, stopAt, g + 2 + o.checks)
    ensures RunsOnlyUnseen([o] + rest.runs, stopAt, g)
    ensures EndsOnlyWhenSeen(Walk([o] + rest.runs, rest.announcedOnly), remaining, stopAt, g)
  {
    var all := [o] + rest.runs;
    ConsChecks(o, rest.runs, g);
    forall j | 0 <= j < |all|
      ensures !CancelSeen(stopAt, NextCheck(all[..j], g)) && !CancelSeen(stopAt, NextCheck(all[..j], g) + 1)
    {
      if j > 0 {
        assert NextCheck(all[..j], g) == NextCheck(rest.runs[..j - 1], g + 2 + o.checks);
      }
    }
  }

  predicate AllTerminate(runs: seq<Outcome>) {
    forall j :: 0 <= j < |runs| ==> Terminates(runs[j])
  }

  lemma {:induction false} WalkTerminates(runFile: Runner, files: seq<string>, i: nat, stopAt: Option<nat>,
                                          g: nat, itr: bool)
    requires AlwaysTerminates(runFile)
    requires i <= |files|
    ensures AllTerminate(WalkFrom(runFile, files, i, stopAt, g, itr).runs)
    decreases |files| - i
  {
    if i < |files| && !CancelSeen(stopAt, g) && !CancelSeen(stopAt, g + 1) {
      var o := runFile(files[i], InnerStop(stopAt, g + 2, itr));
      var rest := WalkFrom(runFile, files, i + 1, stopAt, g + 2 + o.checks, itr);
      WalkTerminates(runFile, files, i + 1, stopAt, g + 2 + o.checks, itr);
      assert WalkFrom(runFile, files, i, stopAt, g, itr).runs == [o] + rest.runs;
    }
  }

  /** Each run is the runner's outcome for its file without a stop. */
  ghost predicate RunsUnstopped(runs: seq<Outcome>, runFile: Runner, files: seq<string>, i: nat) {
    i + |runs| <= |files| &&
    forall j :: 0 <= j < |runs| ==> runs[j] == runFile(files[i + j], None)
  }

  lemma RunsUnstoppedCons(runFile: Runner, files: seq<string>, i: nat, runs: seq<Outcome>)
    requires i < |files| && RunsUnstopped(runs, runFile, files, i + 1)
    ensures RunsUnstopped([runFile(files[i], None)] + runs, runFile, files, i)
  {
    var all := [runFile(files[i], None)] + runs;
    forall j | 0 <= j < |all|
      ensures all[j] == runFile(files[i + j], None)
    {
      if j > 0 {
        assert all[j] == runs[j - 1];
        assert i + 1 + (j - 1) == i + j;
      }
    }
  }

  /** Without a stop request every file runs, a failing one included. */
  lemma {:induction false} WalkWithoutStop(runFile: Runner, files: seq<string>, i: nat, g: nat, itr: bool)
    requires i <= |files|
    ensures |WalkFrom(runFile, files, i, None, g, itr).runs| == |files| - i
    ensures RunsUnstopped(WalkFrom(runFile, files, i, None, g, itr).runs, runFile, files, i)
    decreases |files| - i
  {
    if i < |files| {
      assert InnerStop(None, g + 2, itr) == None;
      var o := runFile(files[i], None);
      var rest := WalkFrom(runFile, files, i + 1, None, g + 2 + o.checks, itr);
      assert WalkFrom(runFile, files, i, None, g, itr).runs == [o] + rest.runs;
      WalkWithoutStop(runFile, files, i + 1, g + 2 + o.checks, itr);
      RunsUnstoppedCons(runFile, files, i, rest.runs);
    }
  }

  /** A sequence is a prefix of another. */
  predicate IsPrefix<T(==)>(a: seq<T>, b: seq<T>) {
    |a| <= |b| && b[..|a|] == a
  }

  /** With the stop never forwarded, a stop only cuts the list short: the
      runs are a prefix of those of the same walk without a stop. */
  lemma {:induction false} WalkStopOnlyTruncates(runFile: Runner, files: seq<string>, i: nat,
                                                 stopAt: Option<nat>, g: nat)
    requires i <= |files|
    ensures IsPrefix(WalkFrom(runFile, files, i, stopAt, g, false).runs, WalkFrom(runFile, files, i, None, g, false).runs)
    decreases |files| - i
  {
    if i < |files| && !CancelSeen(stopAt, g) && !CancelSeen(stopAt, g + 1) {
      assert InnerStop(stopAt, g + 2, false) == None && InnerStop(None, g + 2, false) == None;
      var o := runFile(files[i], None);
      var cut := WalkFrom(runFile, files, i + 1, stopAt, g + 2 + o.checks, false);
      var full := WalkFrom(runFile, files, i + 1, None, g + 2 + o.checks, false);
      assert WalkFrom(runFile, files, i, stopAt, g, false).runs == [o] + cut.runs;
      assert WalkFrom(runFile, files, i, None, g, false).runs == [o] + full.runs;
      WalkStopOnlyTruncates(runFile, files, i + 1, stopAt, g + 2 + o.checks);
      assert ([o] + full.runs)[..1 + |cut.runs|] == [o] + full.runs[..|cut.runs|];
    }
  }

  /** A runner never reports a cancellation for a run given no stop. */
  ghost predicate NeverCancelsUnstopped(runFile: Runner) {
    forall path :: !EndsCancelled(runFile(path, None))
  }

  /** With the stop never forwarded, no run of the walk ends cancelled. */
  lemma {:induction false} WalkNeverCancels(runFile: Runner, files: seq<string>, i: nat,
                                            stopAt: Option<nat>, g: nat)
    requires NeverCancelsUnstopped(runFile)
    requires i <= |files|
    ensures forall j :: 0 <= j < |WalkFrom(runFile, files, i, stopAt, g, false).runs|
                        ==> !EndsCancelled(WalkFrom(runFile, files, i, stopAt, g, false).runs[j])
    decreases |files| - i
  {
    if i < |files| && !CancelSeen(stopAt, g) && !CancelSeen(stopAt, g + 1) {
      assert InnerStop(stopAt, g + 2, false) == None;
      var o := runFile(files[i], None);
      var rest := WalkFrom(runFile, files, i + 1, stopAt, g + 2 + o.checks, false);
      var all := [o] + rest.runs;
      assert WalkFrom(runFile, files, i, stopAt, g, false).runs == all;
      WalkNeverCancels(runFile, files, i + 1, stopAt, g + 2 + o.checks);
      forall j | 0 <= j < |all| ensures !EndsCancelled(all[j]) {
        if j > 0 {
          assert all[j] == rest.runs[j - 1];
        }
      }
    }
  }

  /** A runner reports a cancellation only for a stop it saw among the
      checkpoints it polled. */
  ghost predicate CancelsWithinChecks(runFile: Runner) {
    forall path, c: Option<nat> :: EndsCancelled(runFile(path, c)) ==> c.Some? && c.value < runFile(path, c).checks
  }

  /** The outcome ends with the cancellation error. */
  predicate EndsCancelled(o: Outcome) {
    |o.events| > 0 && o.events[|o.events| - 1] == Error(Cancelled)
  }

  /** Only the last run may be a cancelled one. */
  predicate CancelledOnlyLast(runs: seq<Outcome>) {
    forall j :: 0 <= j < |runs| - 1 ==> !EndsCancelled(runs[j])
  }

  /** With the stop forwarded, the file it cancels is the last one that runs:
      the batch's next check sees the flag. */
  lemma {:induction false} WalkCancelledOnlyLast(runFile: Runner, files: seq<string>, i: nat,
                                                 stopAt: Option<nat>, g: nat)
    requires CancelsWithinChecks(runFile)
    requires i <= |files|
    ensures CancelledOnlyLast(WalkFrom(runFile, files, i, stopAt, g, true).runs)
    decreases |files| - i
  {
    if i < |files| && !CancelSeen(stopAt, g) && !CancelSeen(stopAt, g + 1) {
      var inner := InnerStop(stopAt, g + 2, true);
      var o := runFile(files[i], inner);
      var rest := WalkFrom(runFile, files, i + 1, stopAt, g + 2 + o.checks, true);
      var all := [o] + rest.runs;
      assert WalkFrom(runFile, files, i, stopAt, g, true).runs == all;
      WalkCancelledOnlyLast(runFile, files, i + 1, stopAt, g + 2 + o.checks);
      if EndsCancelled(o) {
        assert CancelSeen(stopAt, g + 2 + o.checks);
        assert rest.runs == [];
      } else {
        forall j | 0 <= j < |all| - 1
          ensures !EndsCancelled(all[j])
        {
          if j > 0 {
            assert all[j] == rest.runs[j - 1];
          }
        }
      }
    }
  }

  /** `file_started`, the relayed engine signals, then the overall-progress
      update. */
  function FileEvents(name: string, relayed: seq<BatchEvent>, percent: int): (r: seq<BatchEvent>)
    requires forall k :: 0 <= k < |relayed| ==> !relayed[k].OverallProgress? && !relayed[k].BatchFinished?
    ensures Overall(r) == [percent]
    ensures |r| > 0 && r[0] == FileStarted(name)
    ensures forall k :: 0 <= k < |r| ==> !r[k].BatchFinished?
  {
    OverallOfConcat([FileStarted(name)] + relayed, [OverallProgress(percent)]);
    OverallOfConcat([FileStarted(name)], relayed);
    OverallOfNone(relayed);
    [FileStarted(name)] + relayed + [OverallProgress(percent)]
  }

  /** The signals of runs `j` on, each file's after the previous one's. */
  function RunEvents(files: seq<string>, runs: seq<Outcome>, j: nat): (r: seq<BatchEvent>)
    requires j <= |runs| <= |files|
    ensures Overall(r) == Percents(j, |runs| - j, |files|)
    ensures forall k :: 0 <= k < |r| ==> !r[k].BatchFinished?
    decreases |runs| - j
  {
    if j == |runs| then []
    else
      var name := Paths.Basename(files[j]);
      var head := FileEvents(name, Relay(name, runs[j].events), Percent(j + 1, |files|));
      var rest := RunEvents(files, runs, j + 1);
      OverallOfConcat(head, rest);
      head + rest
  }

  /** The result list: one record per file that ran, in list order. */
  function Records(files: seq<string>, runs: seq<Outcome>): (r: seq<Record>)
    requires |runs| <= |files| && AllTerminate(runs)
    ensures |r| == |runs|
    ensures forall j :: 0 <= j < |r| ==> r[j].filename == Paths.Basename(files[j])
    ensures forall j :: 0 <= j < |r| ==> (r[j].Failed? && r[j].failure == Cancelled <==> EndsCancelled(runs[j]))
  {
    seq(|runs|, j requires 0 <= j < |runs| => RecordOf(Paths.Basename(files[j]), Last(runs[j].events)))
  }

  /** The records of a prefix of the runs are a prefix of the records. */
  lemma RecordsOfPrefix(files: seq<string>, a: seq<Outcome>, b: seq<Outcome>)
    requires |b| <= |files| && AllTerminate(b) && IsPrefix(a, b)
    ensures AllTerminate(a)
    ensures IsPrefix(Records(files, a), Records(files, b))
  {
    assert forall j :: 0 <= j < |a| ==> a[j] == b[j];
    var ra, rb := Records(files, a), Records(files, b);
    assert forall j :: 0 <= j < |ra| ==> rb[j] == ra[j];
  }

  /** What the caller sees of a batch: the signals and the result list. */
  datatype BatchResult = BatchResult(events: seq<BatchEvent>, records: seq<Record>)

  /** The output directory can be used: it exists, or `os.makedirs` creates
      it (which fails for an empty path). */
  predicate OutputDirReady(dir: string, exists_: bool, creatable: bool): (ready: bool)
    ensures exists_ ==> ready
    ensures dir == "" ==> (ready <==> exists_)
    ensures dir != "" && !exists_ ==> (ready <==> creatable)
  {
    exists_ || (dir != "" && creatable)
  }

  /** The engine with the batch's shared setting, as a runner. */
  function EngineRunner(s: Setting): (runFile: Runner)
    ensures AlwaysTerminates(runFile)
    ensures forall path, cancelAt :: runFile(path, cancelAt) == FileRun(s, path, cancelAt)
  {
    (path, cancelAt) => FileRun(s, path, cancelAt)
  }

  /** The walk of a batch whose output directory is ready. */
  function BatchWalk(s: Setting, files: seq<string>, stopAt: Option<nat>, innerThreadRunning: bool): (w: Walk)
    ensures |w.runs| <= |files| && AllTerminate(w.runs)
    ensures w.announcedOnly ==> |w.runs| < |files|
  {
    WalkTerminates(EngineRunner(s), files, 0, stopAt, 0, innerThreadRunning);
    WalkFrom(EngineRunner(s), files, 0, stopAt, 0, innerThreadRunning)
  }

  /** The signals of a batch that walked `w`: each file's signals, the
      announcement of a file stopped before it ran, then `finished`. */
  function WalkEvents(files: seq<string>, w: Walk): (r: seq<BatchEvent>)
    requires |w.runs| <= |files|
    requires w.announcedOnly ==> |w.runs| < |files|
    ensures |r| > 0 && r[|r| - 1] == BatchFinished
    ensures forall k :: 0 <= k < |r| - 1 ==> !r[k].BatchFinished?
    ensures Overall(r) == Percents(0, |w.runs|, |files|)
  {
    var ran := RunEvents(files, w.runs, 0);
    var closing := Closing(files, w);
    OverallOfNone(closing);
    OverallOfConcat(ran, closing);
    ran + closing
  }

  /** The announcement of a file stopped before it ran, if any, then
      `finished`. */
  function Closing(files: seq<string>, w: Walk): (r: seq<BatchEvent>)
    requires w.announcedOnly ==> |w.runs| < |files|
    ensures |r| > 0 && r[|r| - 1] == BatchFinished
    ensures forall k :: 0 <= k < |r| ==> !r[k].OverallProgress?
    ensures forall k :: 0 <= k < |r| - 1 ==> !r[k].BatchFinished?
  {
    if w.announcedOnly then [FileStarted(Paths.Basename(files[|w.runs|])), BatchFinished] else [BatchFinished]
  }

  /** `BatchProcessor.run`, with `innerThreadRunning` telling whether `stop`
      finds the current processor's thread running. */
  function RunBatch(s: Setting, files: seq<string>, dirExists: bool, dirCreatable: bool,
                    stopAt: Option<nat>, innerThreadRunning: bool): (r: BatchResult)
    ensures |r.events| > 0 && r.events[|r.events| - 1] == BatchFinished
    ensures forall k :: 0 <= k < |r.events| - 1 ==> !r.events[k].BatchFinished?
    ensures |r.records| <= |files|
    ensures forall j :: 0 <= j < |r.records| ==> r.records[j].filename == Paths.Basename(files[j])
    ensures Overall(r.events) == Percents(0, |r.records|, |files|)
    ensures |files| == 0 ==> r == BatchResult([BatchFinished], [])
    ensures |files| > 0 && !OutputDirReady(s.outputDir, dirExists, dirCreatable) ==>
      r == BatchResult([BatchError, BatchFinished], [])
    ensures |files| > 0 && OutputDirReady(s.outputDir, dirExists, dirCreatable) ==>
      r.records == Records(files, BatchWalk(s, files, stopAt, innerThreadRunning).runs)
  {
    if |files| == 0 then BatchResult([BatchFinished], [])
    else if !OutputDirReady(s.outputDir, dirExists, dirCreatable) then BatchResult([BatchError, BatchFinished], [])
    else
      var w := BatchWalk(s, files, stopAt, innerThreadRunning);
      BatchResult(WalkEvents(files, w), Records(files, w.runs))
  }

  /** The batch as written: the engine is invoked with `run()` on the batch's
      own thread, so its thread never counts as running and `stop` never
      reaches it. */
  function RunAsWritten(s: Setting, files: seq<string>, dirExists: bool, dirCreatable: bool,
                        stopAt: Option<nat>): (r: BatchResult)
    ensures |r.events| > 0 && r.events[|r.events| - 1] == BatchFinished
    ensures |r.records| <= |files|
    ensures forall j :: 0 <= j < |r.records| ==> r.records[j].filename == Paths.Basename(files[j])
  {
    RunBatch(s, files, dirExists, dirCreatable, stopAt, false)
  }

  /** The batch with the stop request reaching the running file, as `stop`
      intends. */
  function RunForwarding(s: Setting, files: seq<string>, dirExists: bool, dirCreatable: bool,
                         stopAt: Option<nat>): (r: BatchResult)
    ensures |r.events| > 0 && r.events[|r.events| - 1] == BatchFinished
    ensures |r.records| <= |files|
    ensures forall j :: 0 <= j < |r.records| ==> r.records[j].filename == Paths.Basename(files[j])
  {
    RunBatch(s, files, dirExists, dirCreatable, stopAt, true)
  }
}

=== FILE: detector.dfy ===
/** The change detector of core/video_processor.py: the parameters the engine
    picks for the chosen algorithm, the blur-size normalisation, and the three
    keep predicates over the measurements of one (previous, current) frame pair.
    The pixel work itself (grey conversion, Gaussian blur, thresholded
    difference and contours, SSIM, Farneback flow) is not modelled: its outcome
    for a frame pair arrives as a `Measures` value. */
module Detector {
  import opened Wrappers

  /** The algorithm identifiers of utils/constants.py. */
  const AlgoFrameDiff: string := "帧差法 (Frame Difference)"
  const AlgoSsim: string := "结构相似性 (SSIM)"
  const AlgoOpticalFlow: string := "光流法 (Optical Flow)"

  /** The three algorithms, and `Unrecognised` for any other name: the engine
      accepts it, smooths with the frame-difference blur size, and keeps no
      middle frame, since none of its three comparisons applies. */
  datatype Algorithm = FrameDifference | StructuralSimilarity | OpticalFlow | Unrecognised

  /** The engine compares the name with each of the three identifiers. */
  function AlgorithmOf(name: string): (a: Algorithm)
    ensures a == FrameDifference <==> name == AlgoFrameDiff
    ensures a == StructuralSimilarity <==> name == AlgoSsim
    ensures a == OpticalFlow <==> name == AlgoOpticalFlow
    ensures a == Unrecognised <==> name != AlgoFrameDiff && name != AlgoSsim && name != AlgoOpticalFlow
  {
    if name == AlgoFrameDiff then FrameDifference
    else if name == AlgoSsim then StructuralSimilarity
    else if name == AlgoOpticalFlow then OpticalFlow
    else Unrecognised
  }

  /** The entries of the parameter dictionary the engine reads; `None` is a
      missing key. */
  datatype Params = Params(
    fDiffThreshold: Option<int>,
    fDiffMinArea: Option<int>,
    fDiffBlurSize: Option<int>,
    ssimThreshold: Option<real>,
    ssimBlurSize: Option<int>,
    flowThreshold: Option<real>,
    flowBlurSize: Option<int>)

  /** What the engine keeps after construction. `threshold` (the binarisation
      level) and `blurSize` only shape the pixel work; the keep predicates read
      `minArea`, `ssimThreshold`, `flowThreshold` and, for SSIM, `blurSize`. */
  datatype Config = Config(
    algorithm: Algorithm,
    threshold: int,
    minArea: int,
    ssimThreshold: real,
    flowThreshold: real,
    blurSize: int)

  const DefaultThreshold: int := 15
  const DefaultMinArea: int := 500
  const DefaultSsimThreshold: real := 0.98
  const DefaultFlowThreshold: real := 1.0
  const DefaultFDiffBlur: int := 5
  const DefaultSsimBlur: int := 5
  const DefaultFlowBlur: int := 7

  /** `max(1, b if b % 2 == 1 else b + 1)`: Gaussian smoothing needs an odd
      kernel of at least 1. */
  function NormaliseBlur(b: int): (r: int)
    ensures r >= 1 && r % 2 == 1
    ensures b >= 1 && b % 2 == 1 ==> r == b
    ensures b >= 0 && b % 2 == 0 ==> r == b + 1
    ensures b < 0 ==> r == 1
  {
    var candidate := if b % 2 == 1 then b else b + 1;
    if candidate < 1 then 1 else candidate
  }

  /** The blur size the dictionary supplies for an algorithm, with that
      algorithm's default when the key is missing; an unrecognised name reads
      the frame-difference key. */
  function RawBlur(a: Algorithm, p: Params): int {
    match a
    case StructuralSimilarity => p.ssimBlurSize.GetOr(DefaultSsimBlur)
    case OpticalFlow => p.flowBlurSize.GetOr(DefaultFlowBlur)
    case FrameDifference => p.fDiffBlurSize.GetOr(DefaultFDiffBlur)
    case Unrecognised => p.fDiffBlurSize.GetOr(DefaultFDiffBlur)
  }

  /** The constructor's parameter selection. */
  function ResolveConfig(name: string, p: Params): (c: Config)
    ensures c.algorithm == AlgorithmOf(name)
    ensures c.blurSize >= 1 && c.blurSize % 2 == 1
    ensures c.blurSize == NormaliseBlur(RawBlur(c.algorithm, p))
    ensures c.algorithm != StructuralSimilarity && c.algorithm != OpticalFlow ==>
      c.blurSize == NormaliseBlur(p.fDiffBlurSize.GetOr(5))
    ensures p.fDiffThreshold.Some? ==> c.threshold == p.fDiffThreshold.value
    ensures p.fDiffThreshold.None? ==> c.threshold == 15
    ensures p.fDiffMinArea.Some? ==> c.minArea == p.fDiffMinArea.value
    ensures p.fDiffMinArea.None? ==> c.minArea == 500
    ensures p.ssimThreshold.Some? ==> c.ssimThreshold == p.ssimThreshold.value
    ensures p.ssimThreshold.None? ==> c.ssimThreshold == 0.98
    ensures p.flowThreshold.Some? ==> c.flowThreshold == p.flowThreshold.value
    ensures p.flowThreshold.None? ==> c.flowThreshold == 1.0
  {
    var a := AlgorithmOf(name);
    Config(a,
           p.fDiffThreshold.GetOr(DefaultThreshold),
           p.fDiffMinArea.GetOr(DefaultMinArea),
           p.ssimThreshold.GetOr(DefaultSsimThreshold),
           p.flowThreshold.GetOr(DefaultFlowThreshold),
           NormaliseBlur(RawBlur(a, p)))
  }

  /** With no blur entries in the dictionary, SSIM and frame difference smooth
      with 5 and optical flow with 7. */
  lemma DefaultBlurPerAlgorithm(name: string, p: Params)
    requires p.fDiffBlurSize.None? && p.ssimBlurSize.None? && p.flowBlurSize.None?
    ensures ResolveConfig(name, p).blurSize == (if name == AlgoOpticalFlow then 7 else 5)
  {
  }

  /** The outcome of the pixel work on one (previous, current) pair:
      the areas of the external contours of the thresholded difference, whether
      the two preprocessed frames have the same shape, the current frame's
      height and width, the SSIM index computed with the engine's window, and
      the mean optical-flow magnitude. Each algorithm reads only its part. */
  datatype Measures = Measures(
    areas: seq<real>,
    shapesMatch: bool,
    height: int,
    width: int,
    similarity: real,
    meanMagnitude: real)

  /** The pixel work either yields measurements or raises (an OpenCV error). */
  datatype Comparison = Compared(m: Measures) | Raised

  datatype Verdict = Keep | Discard | Fault

  function Min(a: int, b: int): int {
    if a <= b then a else b
  }

  /** `any(area > min_area for area in areas)`. */
  predicate SomeAreaExceeds(areas: seq<real>, minArea: int) {
    exists k :: 0 <= k < |areas| && areas[k] > minArea as real
  }

  /** The SSIM window: `min(7, blur, height, width)`, lowered by one when even. */
  function SsimWindow(blur: int, height: int, width: int): (w: int)
    ensures w % 2 == 1
    ensures w <= 7 && w <= blur && w <= height && w <= width
    ensures w >= Min(Min(7, blur), Min(height, width)) - 1
  {
    var w := Min(Min(7, blur), Min(height, width));
    if w % 2 == 0 then w - 1 else w
  }

  /** SSIM keeps on a shape mismatch or a window below 3 (no index is computed
      then) and otherwise when the index is below the threshold. */
  predicate SsimKeeps(c: Config, m: Measures) {
    if !m.shapesMatch then true
    else if SsimWindow(c.blurSize, m.height, m.width) >= 3 then m.similarity < c.ssimThreshold
    else true
  }

  /** The keep predicate of the configured algorithm; an unrecognised one
      keeps nothing. */
  predicate Keeps(c: Config, m: Measures) {
    match c.algorithm
    case FrameDifference => SomeAreaExceeds(m.areas, c.minArea)
    case StructuralSimilarity => SsimKeeps(c, m)
    case OpticalFlow => m.meanMagnitude > c.flowThreshold
    case Unrecognised => false
  }

  /** The decision for a middle frame. */
  function Decide(c: Config, cmp: Comparison): (v: Verdict)
    ensures v == Fault <==> cmp.Raised?
    ensures cmp.Compared? && c.algorithm == FrameDifference ==>
      (v == Keep <==> exists k :: 0 <= k < |cmp.m.areas| && cmp.m.areas[k] > c.minArea as real)
    ensures cmp.Compared? && c.algorithm == StructuralSimilarity ==>
      (v == Keep <==> !cmp.m.shapesMatch
                      || Min(Min(7, c.blurSize), Min(cmp.m.height, cmp.m.width)) < 3
                      || cmp.m.similarity < c.ssimThreshold)
    ensures cmp.Compared? && c.algorithm == OpticalFlow ==>
      (v == Keep <==> cmp.m.meanMagnitude > c.flowThreshold)
    ensures cmp.Compared? && c.algorithm == Unrecognised ==> v == Discard
  {
    match cmp
    case Raised => Fault
    case Compared(m) => if Keeps(c, m) then Keep else Discard
  }

  /** An area equal to `min_area` does not make frame difference keep. */
  lemma AreaEqualToMinAreaDoesNotKeep(c: Config, m: Measures)
    requires c.algorithm == FrameDifference
    requires forall k :: 0 <= k < |m.areas| ==> m.areas[k] <= c.minArea as real
    ensures Decide(c, Compared(m)) == Discard
  {
  }

  /** Two configurations that differ at most in `minArea`, `ssimThreshold` and
      `flowThreshold`, where `hi` is at least as strict as `lo`: a larger
      minimum area, a smaller SSIM threshold, a larger flow threshold. */
  predicate AtLeastAsStrict(hi: Config, lo: Config) {
    && hi.algorithm == lo.algorithm
    && hi.threshold == lo.threshold
    && hi.blurSize == lo.blurSize
    && hi.minArea >= lo.minArea
    && hi.ssimThreshold <= lo.ssimThreshold
    && hi.flowThreshold >= lo.flowThreshold
  }

  /** Pointwise monotonicity: what the stricter configuration keeps, the laxer
      one keeps too, and a fault is a fault under both. */
  lemma StricterKeepsLess(hi: Config, lo: Config, cmp: Comparison)
    requires AtLeastAsStrict(hi, lo)
    ensures Decide(hi, cmp) == Keep ==> Decide(lo, cmp) == Keep
    ensures Decide(hi, cmp) == Fault <==> Decide(lo, cmp) == Fault
  {
    if cmp.Compared? && hi.algorithm == FrameDifference && Decide(hi, cmp) == Keep {
      var k :| 0 <= k < |cmp.m.areas| && cmp.m.areas[k] > hi.minArea as real;
      assert cmp.m.areas[k] > lo.minArea as real;
    }
  }
}

=== FILE: dialogs.dfy ===
/** The logic inside ui/dialogs.py: the blur-size correction the settings
    dialog applies on OK, the player's time label, and the frame-difference
    preview (which pair of frames it reads, how it smooths, and its verdict). */
module Dialogs {
  import opened Wrappers
  import opened Text
  import Detector

  function Max(a: int, b: int): int {
    if a >= b then a else b
  }

  function Min(a: int, b: int): int {
    if a <= b then a else b
  }

  /** `max(lo, min(hi, v))`. */
  function Clamp(v: int, lo: int, hi: int): (r: int)
    ensures lo <= hi ==> lo <= r <= hi
    ensures lo <= v <= hi ==> r == v
  {
    Max(lo, Min(hi, v))
  }

  /** Clamping an odd value between odd bounds gives an odd value. */
  lemma ClampKeepsOdd(v: int, lo: int, hi: int)
    requires lo <= hi && v % 2 == 1 && lo % 2 == 1 && hi % 2 == 1
    ensures Clamp(v, lo, hi) % 2 == 1
  {
  }

  // ---------------------------------------------------------------------
  // Settings dialog
  // ---------------------------------------------------------------------

  /** `make_odd_and_clamp`: `value` is `None` when `int(value)` raises. An even
      value moves up to the next odd number if that stays within `hi`, else down
      if that stays within `lo`, else becomes `lo`; the result is then clamped. */
  function MakeOddAndClamp(value: Option<int>, lo: int, hi: int): (r: int)
    ensures lo <= hi ==> lo <= r <= hi
    ensures lo > hi ==> r == lo
    ensures value.None? && lo <= hi && lo % 2 == 1 ==> r == lo
  {
    var v := value.GetOr(lo);
    var odd :=
      if v % 2 == 0 then
        if v + 1 <= hi then v + 1
        else if v - 1 >= lo then v - 1
        else lo
      else v;
    Clamp(odd, lo, hi)
  }

  /** With odd bounds, the result is odd; an odd value within the bounds is
      kept, and an even one inside them goes up by one. */
  lemma MakeOddAndClampGivesOdd(value: Option<int>, lo: int, hi: int)
    requires lo <= hi && lo % 2 == 1 && hi % 2 == 1
    ensures MakeOddAndClamp(value, lo, hi) % 2 == 1
    ensures value.Some? && lo <= value.value <= hi && value.value % 2 == 1 ==>
      MakeOddAndClamp(value, lo, hi) == value.value
    ensures value.Some? && lo <= value.value < hi && value.value % 2 == 0 ==>
      MakeOddAndClamp(value, lo, hi) == value.value + 1
  {
    var v := value.GetOr(lo);
    if v % 2 == 0 {
      if v + 1 <= hi {
        assert (v + 1) % 2 == 1;
      } else {
        assert v > hi;
        assert v - 1 >= lo && (v - 1) % 2 == 1;
      }
    }
  }

  /** Correcting an already corrected value changes nothing. */
  lemma MakeOddAndClampIdempotent(value: Option<int>, lo: int, hi: int)
    requires lo <= hi && lo % 2 == 1 && hi % 2 == 1
    ensures MakeOddAndClamp(Some(MakeOddAndClamp(value, lo, hi)), lo, hi) == MakeOddAndClamp(value, lo, hi)
  {
    MakeOddAndClampGivesOdd(value, lo, hi);
    MakeOddAndClampGivesOdd(Some(MakeOddAndClamp(value, lo, hi)), lo, hi);
  }

  /** The dialog's bounds are 1 and 51. */
  const BlurMin: int := 1
  const BlurMax: int := 51

  /** A blur size the dialog saves is one the engine uses unchanged. */
  lemma SavedBlurUsedAsIs(value: Option<int>)
    ensures Detector.NormaliseBlur(MakeOddAndClamp(value, BlurMin, BlurMax)) == MakeOddAndClamp(value, BlurMin, BlurMax)
  {
    MakeOddAndClampGivesOdd(value, BlurMin, BlurMax);
  }

  // ---------------------------------------------------------------------
  // Player time label
  // ---------------------------------------------------------------------

  predicate IsClockChar(c: char) {
    IsDigit(c) || c == ':'
  }

  /** `f"{s // 60:02d}:{s % 60:02d}"` with `s = max(0, ms) // 1000`. */
  function Clock(ms: int): (s: string)
    ensures forall k :: 0 <= k < |s| ==> IsClockChar(s[k])
    ensures |s| >= 5 && s[|s| - 3] == ':'
    ensures AllDigits(s[|s| - 2..]) && DigitsValue(s[|s| - 2..]) < 60
    ensures Max(0, ms) / 1000 / 60 < 100 ==> |s| == 5
  {
    var sec := Max(0, ms) / 1000;
    var m, r := Pad2(sec / 60), Pad2(sec % 60);
    assert forall k :: 0 <= k < |m + ":" + r| ==>
      (m + ":" + r)[k] == if k < |m| then m[k] else if k == |m| then ':' else r[k - |m| - 1];
    assert (m + ":" + r)[|m + ":" + r| - 2..] == r;
    m + ":" + r
  }

  /** Reading a clock text back: minutes before the first ':', seconds after
      it, both plain digits. */
  function ClockSeconds(s: string): Option<nat> {
    var m := FirstField(s, ":");
    if |m| < |s| then
      var rest := s[|m| + 1..];
      if |m| > 0 && |rest| > 0 && AllDigits(m) && AllDigits(rest) then
        Some(DigitsValue(m) * 60 + DigitsValue(rest))
      else None
    else None
  }

  /** The clock shows whole seconds of a non-negative position: reading it
      back gives `max(0, ms) // 1000`. */
  lemma ClockRoundTrip(ms: int)
    ensures ClockSeconds(Clock(ms)) == Some(Max(0, ms) / 1000)
  {
    var sec := Max(0, ms) / 1000;
    var m, r := Pad2(sec / 60), Pad2(sec % 60);
    FirstFieldOfJoined(m, ":", r);
    assert Clock(ms) == m + ":" + r;
    assert (m + ":" + r)[|m| + 1..] == r;
  }

  const DurationSep: string := " / "
  const NoDuration: string := "--:--"

  /** `update_time_label`: the new text for the label, or `None` when the label
      is left alone. With a known duration the whole label is replaced unless
      it already reads that; without one only a changed position part causes
      a rewrite, with "--:--" as the duration. */
  function UpdateTimeLabel(current: string, positionMs: int, durationMs: int): (r: Option<string>)
    ensures r.Some? ==> FirstField(r.value, DurationSep) == Clock(positionMs)
    ensures r.None? && durationMs > 0 ==> current == Clock(positionMs) + DurationSep + Clock(durationMs)
    ensures r.None? && durationMs <= 0 ==> FirstField(current, DurationSep) == Clock(positionMs)
    ensures r.Some? && durationMs > 0 ==> r.value == Clock(positionMs) + DurationSep + Clock(durationMs)
    ensures r.Some? && durationMs <= 0 ==> r.value == Clock(positionMs) + DurationSep + NoDuration
  {
    var pos := Clock(positionMs);
    if Max(0, durationMs) > 0 then
      var full := pos + DurationSep + Clock(durationMs);
      FirstFieldOfJoined(pos, DurationSep, Clock(durationMs));
      if current != full then Some(full) else None
    else
      FirstFieldOfJoined(pos, DurationSep, NoDuration);
      if FirstField(current, DurationSep) != pos then Some(pos + DurationSep + NoDuration) else None
  }

  /** What the label reads after the update. */
  function LabelAfter(current: string, positionMs: int, durationMs: int): string {
    UpdateTimeLabel(current, positionMs, durationMs).GetOr(current)
  }

  /** After an update the label's position part is the position's clock, and
      with a known duration the label is the position's clock and the
      duration's clock. */
  lemma LabelShowsTimes(current: string, positionMs: int, durationMs: int)
    ensures FirstField(LabelAfter(current, positionMs, durationMs), DurationSep) == Clock(positionMs)
    ensures durationMs > 0 ==>
      LabelAfter(current, positionMs, durationMs) == Clock(positionMs) + DurationSep + Clock(durationMs)
  {
    var pos := Clock(positionMs);
    if durationMs > 0 {
      FirstFieldOfJoined(pos, DurationSep, Clock(durationMs));
    } else {
      FirstFieldOfJoined(pos, DurationSep, NoDuration);
    }
  }

  /** The label's position part reads back as the position in whole seconds. */
  lemma LabelReadsBack(current: string, positionMs: int, durationMs: int)
    ensures ClockSeconds(FirstField(LabelAfter(current, positionMs, durationMs), DurationSep)) == Some(Max(0, positionMs) / 1000)
  {
    LabelShowsTimes(current, positionMs, durationMs);
    ClockRoundTrip(positionMs);
  }

  /** A second update with the same times leaves the label alone. */
  lemma UpdateTimeLabelSettles(current: string, positionMs: int, durationMs: int)
    ensures UpdateTimeLabel(LabelAfter(current, positionMs, durationMs), positionMs, durationMs).None?
  {
    var pos := Clock(positionMs);
    if durationMs > 0 {
      FirstFieldOfJoined(pos, DurationSep, Clock(durationMs));
    } else {
      FirstFieldOfJoined(pos, DurationSep, NoDuration);
    }
  }

  // ---------------------------------------------------------------------
  // Frame-difference preview
  // ---------------------------------------------------------------------

  const DefaultPreviewFrame: nat := 100

  /** The constructor's blur correction: an even size goes up by one. */
  function PreviewBlur(b: int): (r: int)
    ensures r % 2 == 1
    ensures r == b || r == b + 1
  {
    if b % 2 == 1 then b else b + 1
  }

  /** For every size the slider can give, the preview smooths exactly as the
      engine will; the two differ only below zero. */
  lemma PreviewBlurAgreesWithEngine(b: int)
    ensures b >= 0 ==> PreviewBlur(b) == Detector.NormaliseBlur(b)
    ensures b < 0 ==> PreviewBlur(b) != Detector.NormaliseBlur(b)
  {
  }

  /** `any(area > min_area for area in areas)`, scanning left to right. */
  function AnyExceeds(areas: seq<real>, minArea: int): bool
    decreases |areas|
  {
    if |areas| == 0 then false
    else if areas[0] > minArea as real then true
    else AnyExceeds(areas[1..], minArea)
  }

  /** The contours the preview draws: those whose area exceeds `min_area`, in
      order. */
  function Drawn(areas: seq<real>, minArea: int): (d: seq<real>)
    ensures |d| <= |areas|
    ensures forall k :: 0 <= k < |d| ==> d[k] > minArea as real && d[k] in areas
    decreases |areas|
  {
    if |areas| == 0 then []
    else if areas[0] > minArea as real then [areas[0]] + Drawn(areas[1..], minArea)
    else Drawn(areas[1..], minArea)
  }

  /** The preview keeps exactly when the engine's frame-difference test keeps,
      and exactly when it draws at least one contour. */
  lemma {:induction false} PreviewVerdictMatchesEngine(areas: seq<real>, minArea: int)
    ensures AnyExceeds(areas, minArea) <==> Detector.SomeAreaExceeds(areas, minArea)
    ensures AnyExceeds(areas, minArea) <==> |Drawn(areas, minArea)| > 0
    decreases |areas|
  {
    if |areas| > 0 {
      PreviewVerdictMatchesEngine(areas[1..], minArea);
      if areas[0] <= minArea as real {
        assert forall k :: 1 <= k < |areas| ==> areas[k] == areas[1..][k - 1];
      }
    }
  }

  datatype PreviewOutcome =
    | OpenFailed
    | TooShort
    | ReadFailed
    | ProcessingFailed(index: nat, adjusted: bool)
    | Shown(index: nat, adjusted: bool, keep: bool, drawn: seq<real>)
  {
    predicate HasIndex() {
      ProcessingFailed? || Shown?
    }
  }

  /** `generate_preview`. Opening, the frame count, reading the two frames and
      the pixel work are inputs; `areas` is `None` when the pixel work raises.
      The pair read is (index, index + 1), with the index lowered to the last
      pair when the video is shorter than asked. */
  function GeneratePreview(isOpen: bool, totalFrames: int, requested: nat, readOk: bool,
                           areas: Option<seq<real>>, minArea: int): (r: PreviewOutcome)
    ensures r.OpenFailed? <==> !isOpen
    ensures r.TooShort? <==> isOpen && totalFrames < 2
    ensures r.HasIndex() ==> r.index + 1 < totalFrames && r.index <= requested
    ensures r.HasIndex() ==> r.index == requested || r.index + 2 == totalFrames
    ensures r.HasIndex() ==> (r.adjusted <==> requested + 1 >= totalFrames)
    ensures r.Shown? ==> areas.Some? && r.keep == Detector.SomeAreaExceeds(areas.value, minArea)
    ensures r.Shown? ==> (r.keep <==> |r.drawn| > 0)
  {
    if !isOpen then OpenFailed
    else
      var maxIndex := totalFrames - 2;
      if maxIndex < 0 then TooShort
      else
        var adjusted := requested > maxIndex;
        var index: nat := if adjusted then maxIndex else requested;
        if !readOk then ReadFailed
        else match areas
          case None => ProcessingFailed(index, adjusted)
          case Some(a) =>
            PreviewVerdictMatchesEngine(a, minArea);
            Shown(index, adjusted, AnyExceeds(a, minArea), Drawn(a, minArea))
  }

  /** The dialog as opened: a video of at least 102 frames shows frames 100
      and 101 without adjustment. */
  lemma LongVideoPreviewsDefaultPair(totalFrames: int, areas: seq<real>, minArea: int)
    requires totalFrames >= DefaultPreviewFrame + 2
    ensures GeneratePreview(true, totalFrames, DefaultPreviewFrame, true, Some(areas), minArea).index == DefaultPreviewFrame
    ensures !GeneratePreview(true, totalFrames, DefaultPreviewFrame, true, Some(areas), minArea).adjusted
  {
  }
}

=== FILE: main_window.dfy ===
/** The logic inside ui/main_window.py: the parameter edits, the automatic and
    the chosen output path, and the batch list (adding and dropping videos,
    recovering a video's path from its list label, and marking a file's
    outcome on its label). Dialogs, widgets and the file system are inputs. */
module MainWindow {
  import opened Wrappers
  import opened Text
  import opened Paths
  import Detector
  import Dialogs

  // ---------------------------------------------------------------------
  // Parameter edits
  // ---------------------------------------------------------------------

  /** The edit's text and the slider's value once editing is finished. */
  datatype EditResult = EditResult(text: string, slider: int)

  /** The value a number typed into the edit ends on: moved up by one when
      the slider wants odd values and it is even, then clamped. */
  function EditValue(v: int, lo: int, hi: int, ensureOdd: bool): (r: int)
    ensures lo <= hi ==> lo <= r <= hi
    ensures lo <= v <= hi && (!ensureOdd || v % 2 == 1) ==> r == v
    ensures lo <= hi && ensureOdd && lo % 2 == 1 && hi % 2 == 1 ==> r % 2 == 1
  {
    var w := if ensureOdd && v % 2 == 0 then v + 1 else v;
    if ensureOdd && lo <= hi && lo % 2 == 1 && hi % 2 == 1 then
      Dialogs.ClampKeepsOdd(w, lo, hi);
      Dialogs.Clamp(w, lo, hi)
    else
      Dialogs.Clamp(w, lo, hi)
  }

  /** `update_slider_from_edit`: a number is corrected, written back to the
      edit and given to the slider; anything else restores the slider's value
      in the edit. */
  function UpdateSliderFromEdit(text: string, slider: int, lo: int, hi: int, ensureOdd: bool): (r: EditResult)
    ensures ParseInt(r.text) == Some(r.slider)
    ensures ParseInt(text).None? ==> r.slider == slider
    ensures ParseInt(text).Some? ==> r.slider == EditValue(ParseInt(text).value, lo, hi, ensureOdd)
    ensures ParseInt(text).Some? && r.text != text ==> r.text == IntToString(r.slider)
  {
    match ParseInt(text)
    case None =>
      IntToStringRoundTrip(slider);
      EditResult(IntToString(slider), slider)
    case Some(v) =>
      var value := EditValue(v, lo, hi, ensureOdd);
      IntToStringRoundTrip(value);
      EditResult(if IntToString(value) != text then IntToString(value) else text, value)
  }

  /** Finishing the edit a second time changes nothing. */
  lemma EditSettles(text: string, slider: int, lo: int, hi: int, ensureOdd: bool)
    requires lo <= hi && (ensureOdd ==> lo % 2 == 1 && hi % 2 == 1)
    requires ParseInt(text).Some?
    ensures var r := UpdateSliderFromEdit(text, slider, lo, hi, ensureOdd);
            UpdateSliderFromEdit(r.text, r.slider, lo, hi, ensureOdd) == r
  {
  }

  /** A typed blur size ends on the same value the settings dialog would save
      for it. */
  lemma BlurEditAgreesWithSettingsDialog(text: string, slider: int)
    requires ParseInt(text).Some?
    ensures UpdateSliderFromEdit(text, slider, Dialogs.BlurMin, Dialogs.BlurMax, true).slider
            == Dialogs.MakeOddAndClamp(ParseInt(text), Dialogs.BlurMin, Dialogs.BlurMax)
  {
  }

  // ---------------------------------------------------------------------
  // Output paths
  // ---------------------------------------------------------------------

  /** The algorithm suffix of an automatic output name. */
  function AlgoSuffix(algorithm: string): (r: string)
    ensures |r| > 0 && Sep !in r && ExtSep !in r
    ensures r == "proc" <==> algorithm !in {Detector.AlgoFrameDiff, Detector.AlgoSsim, Detector.AlgoOpticalFlow}
  {
    if algorithm == Detector.AlgoFrameDiff then "fd"
    else if algorithm == Detector.AlgoSsim then "ssim"
    else if algorithm == Detector.AlgoOpticalFlow then "flow"
    else "proc"
  }

  /** The proposed file name for an input: its stem, the suffix, ".mp4". */
  function AutoName(inputPath: string, algorithm: string): (r: string)
    ensures Sep !in r
  {
    var suffix := AlgoSuffix(algorithm);
    var tail := "_" + suffix + ".mp4";
    SepFreeConcat("_", suffix);
    SepFreeConcat("_" + suffix, ".mp4");
    SepFreeConcat(Stem(inputPath), tail);
    Stem(inputPath) + tail
  }

  /** `generate_output_path`: nothing without an input; otherwise the
      proposed name in the input's directory. */
  function AutoOutputPath(inputPath: string, algorithm: string): (r: Option<string>)
    ensures r.None? <==> inputPath == ""
    ensures r.Some? ==> Basename(r.value) == AutoName(inputPath, algorithm)
    ensures r.Some? ==> Dirname(r.value) == Dirname(inputPath)
  {
    if inputPath == "" then None
    else
      BasenameOfJoin(Dirname(inputPath), AutoName(inputPath, algorithm));
      DirnameOfJoinDirname(inputPath, AutoName(inputPath, algorithm));
      Some(Join(Dirname(inputPath), AutoName(inputPath, algorithm)))
  }

  /** The automatic output never overwrites its input. */
  lemma AutoOutputIsNotInput(inputPath: string, algorithm: string)
    requires inputPath != ""
    ensures AutoOutputPath(inputPath, algorithm).value != inputPath
  {
    AutoNameIsNotBasename(inputPath, algorithm);
  }

  lemma AutoNameIsNotBasename(inputPath: string, algorithm: string)
    ensures AutoName(inputPath, algorithm) != Basename(inputPath)
  {
    var split := SplitExt(Basename(inputPath));
    var stem, ext := split.0, split.1;
    var tail := "_" + AlgoSuffix(algorithm) + ".mp4";
    assert AutoName(inputPath, algorithm) == stem + tail;
    assert (stem + ext)[|stem|..] == ext;
    assert (stem + tail)[|stem|..] == tail;
    assert tail[0] == '_';
  }

  /** Two algorithms with different suffixes never share an automatic output. */
  lemma AutoOutputsDifferPerAlgorithm(inputPath: string, a: string, b: string)
    requires inputPath != "" && AlgoSuffix(a) != AlgoSuffix(b)
    ensures AutoOutputPath(inputPath, a) != AutoOutputPath(inputPath, b)
  {
    var stem := Stem(inputPath);
    var ta, tb := "_" + AlgoSuffix(a) + ".mp4", "_" + AlgoSuffix(b) + ".mp4";
    assert ta[1..|ta| - 4] == AlgoSuffix(a);
    assert tb[1..|tb| - 4] == AlgoSuffix(b);
    assert AutoName(inputPath, a) == stem + ta && AutoName(inputPath, b) == stem + tb;
    assert (stem + ta)[|stem|..] == ta && (stem + tb)[|stem|..] == tb;
  }

  const DefaultOutputName: string := "output_processed.mp4"

  /** Where `select_output` opens its dialog: beside the input with the
      automatic name, else in the last output directory (or the home
      directory when none is stored) under "output_processed.mp4". */
  function SaveDialogStart(inputPath: string, algorithm: string, lastOutputDir: string, home: string): (r: string)
    ensures inputPath == "" ==> Basename(r) == DefaultOutputName
  {
    if inputPath == "" then
      BasenameOfJoin(if lastOutputDir != "" then lastOutputDir else home, DefaultOutputName);
      Join(if lastOutputDir != "" then lastOutputDir else home, DefaultOutputName)
    else Join(Dirname(inputPath), AutoName(inputPath, algorithm))
  }

  /** With an input, the save dialog proposes exactly the automatic output. */
  lemma SaveDialogProposesAutoOutput(inputPath: string, algorithm: string, lastOutputDir: string, home: string)
    requires inputPath != ""
    ensures Some(SaveDialogStart(inputPath, algorithm, lastOutputDir, home)) == AutoOutputPath(inputPath, algorithm)
  {
  }

  /** The ".mp4" rule of `select_output`: appended unless the name already
      ends with it in any letter case. */
  function EnsureMp4(fname: string): (r: string)
    ensures EndsWith(Lower(r), ".mp4")
    ensures |fname| <= |r| && r[..|fname|] == fname
    ensures EndsWith(Lower(fname), ".mp4") <==> r == fname
  {
    if EndsWith(Lower(fname), ".mp4") then fname
    else
      var r := fname + ".mp4";
      assert Lower(r)[|r| - 4..] == ".mp4";
      r
  }

  /** Applying the rule twice is applying it once. */
  lemma EnsureMp4Idempotent(fname: string)
    ensures EnsureMp4(EnsureMp4(fname)) == EnsureMp4(fname)
  {
  }

  /** The outcome of `select_output`: nothing when the dialog is cancelled,
      else the output path and the directory stored as `last_output_dir`. */
  datatype OutputChoice = OutputChoice(outputPath: string, lastOutputDir: string)

  function SelectOutput(fname: string): (r: Option<OutputChoice>)
    ensures r.None? <==> fname == ""
    ensures r.Some? ==> EndsWith(Lower(r.value.outputPath), ".mp4")
    ensures r.Some? ==> |fname| <= |r.value.outputPath| && r.value.outputPath[..|fname|] == fname
    ensures r.Some? ==> r.value.lastOutputDir == Dirname(r.value.outputPath)
  {
    if fname == "" then None
    else Some(OutputChoice(EnsureMp4(fname), Dirname(EnsureMp4(fname))))
  }

  // ---------------------------------------------------------------------
  // Batch list: adding videos
  // ---------------------------------------------------------------------

  predicate NoDuplicates(s: seq<string>) {
    forall i, j :: 0 <= i < j < |s| ==> s[i] != s[j]
  }

  /** The candidates to add, in order: those not listed already and not
      already taken earlier in the same call. */
  function Fresh(current: seq<string>, candidates: seq<string>): seq<string>
    decreases |candidates|
  {
    if |candidates| == 0 then []
    else
      var taken := Fresh(current, candidates[..|candidates| - 1]);
      var c := candidates[|candidates| - 1];
      if c !in current && c !in taken then taken + [c] else taken
  }

  /** What is added is exactly the candidates not listed, each once. */
  lemma {:induction false} FreshContents(current: seq<string>, candidates: seq<string>)
    ensures forall x :: x in Fresh(current, candidates) <==> x in candidates && x !in current
    ensures NoDuplicates(Fresh(current, candidates))
    decreases |candidates|
  {
    if |candidates| > 0 {
      var init := candidates[..|candidates| - 1];
      FreshContents(current, init);
      assert candidates == init + [candidates[|candidates| - 1]];
    }
  }

  /** Adding fresh candidates keeps a duplicate-free list duplicate-free. */
  lemma ListStaysDuplicateFree(current: seq<string>, candidates: seq<string>)
    requires NoDuplicates(current)
    ensures NoDuplicates(current + Fresh(current, candidates))
  {
    FreshContents(current, candidates);
    var f := Fresh(current, candidates);
    var all := current + f;
    forall i, j | 0 <= i < j < |all| ensures all[i] != all[j] {
      if j >= |current| && i < |current| {
        assert all[j] == f[j - |current|] && all[j] in f;
      } else if i >= |current| {
        assert all[i] == f[i - |current|] && all[j] == f[j - |current|];
      }
    }
  }

  /** `add_videos` after the file dialog: the paths to append and, when any
      was appended, the directory of the FIRST chosen file for
      `last_input_dir` (even when that file was a duplicate). */
  method AddVideos(current: seq<string>, chosen: seq<string>) returns (added: seq<string>, lastInputDir: Option<string>)
    ensures added == Fresh(current, chosen)
    ensures lastInputDir.Some? <==> |added| > 0
    ensures lastInputDir.Some? ==> lastInputDir.value == Dirname(chosen[0])
  {
    added := [];
    var i := 0;
    while i < |chosen|
      invariant 0 <= i <= |chosen|
      invariant added == Fresh(current, chosen[..i])
    {
      assert chosen[..i + 1][..i] == chosen[..i];
      if chosen[i] !in current && chosen[i] !in added {
        added := added + [chosen[i]];
      }
      i := i + 1;
    }
    assert chosen[..i] == chosen;
    lastInputDir := if |added| > 0 then Some(Dirname(chosen[0])) else None;
  }

  /** A dropped URL: whether it names a local file, and its path. */
  datatype DroppedUrl = DroppedUrl(isLocal: bool, path: string)

  const VideoExtensions: seq<string> := [".mp4", ".avi", ".mov", ".mkv"]

  /** The drop filter: a local file whose extension, lower-cased, is a video
      extension. */
  predicate AcceptedVideo(u: DroppedUrl) {
    u.isLocal && Lower(SplitExt(u.path).1) in VideoExtensions
  }

  /** The accepted paths of a drop, in order. */
  function DroppedVideos(urls: seq<DroppedUrl>): (r: seq<string>)
    ensures forall x :: x in r <==> exists k :: 0 <= k < |urls| && AcceptedVideo(urls[k]) && urls[k].path == x
    decreases |urls|
  {
    if |urls| == 0 then []
    else
      var rest := DroppedVideos(urls[1..]);
      assert forall k :: 1 <= k < |urls| ==> urls[k] == urls[1..][k - 1];
      (if AcceptedVideo(urls[0]) then [urls[0].path] else []) + rest
  }

  /** `list_dropEvent`: the accepted paths not yet listed, each once. */
  function DropVideos(current: seq<string>, urls: seq<DroppedUrl>): (added: seq<string>)
    ensures forall x :: x in added <==>
      x !in current && exists k :: 0 <= k < |urls| && AcceptedVideo(urls[k]) && urls[k].path == x
    ensures NoDuplicates(added)
  {
    FreshContents(current, DroppedVideos(urls));
    Fresh(current, DroppedVideos(urls))
  }

  /** A drop leaves a duplicate-free list duplicate-free. */
  lemma DropKeepsListDuplicateFree(current: seq<string>, urls: seq<DroppedUrl>)
    requires NoDuplicates(current)
    ensures NoDuplicates(current + DropVideos(current, urls))
  {
    ListStaysDuplicateFree(current, DroppedVideos(urls));
  }

  /** Extensions are matched without regard to letter case. */
  lemma UpperCaseExtensionAccepted()
    ensures AcceptedVideo(DroppedUrl(true, "a.MKV"))
  {
    SplitExtOfName("a", ".MKV");
    assert "a" + ".MKV" == "a.MKV";
    assert Lower(".MKV") == ".mkv" by {
      assert LowerChar('M') == 'm' && LowerChar('K') == 'k' && LowerChar('V') == 'v';
    }
    assert VideoExtensions[3] == ".mkv";
  }

  /** Other extensions are refused, and so is a URL that is not a local file. */
  lemma OtherDropsRefused()
    ensures !AcceptedVideo(DroppedUrl(true, "a.txt"))
    ensures !AcceptedVideo(DroppedUrl(false, "a.mp4"))
  {
    SplitExtOfName("a", ".txt");
    assert "a" + ".txt" == "a.txt";
    assert Lower(".txt") == ".txt";
  }

  // ---------------------------------------------------------------------
  // Batch list: labels
  // ---------------------------------------------------------------------

  /** What a list item shows after its path: nothing, a finished file's kept
      count and speed text (the `{tw_speed:.1f}` rendering), or an error. */
  datatype ItemStatus = Pending | Done(kept: nat, speedText: string) | Errored

  const ItemSep: string := " ("

  /** What a marked item shows after " (". */
  function StatusText(status: ItemStatus): (t: string)
    ensures status.Pending? <==> t == ""
    ensures !status.Pending? ==> t[|t| - 1] == ')'
  {
    match status
    case Pending => ""
    case Done(kept, speedText) => "完成 ✔ | " + IntToString(kept) + " 帧 | TW: " + speedText + "%)"
    case Errored => "错误 ❌)"
  }

  /** The text of a list item for a path. */
  function ItemLabel(path: string, status: ItemStatus): (text: string)
    ensures |path| <= |text| && text[..|path|] == path
    ensures status.Pending? <==> text == path
    ensures !status.Pending? ==> |text| > |path| + 2 && text[|path|..|path| + 2] == ItemSep && text[|text| - 1] == ')'
  {
    if status.Pending? then path else path + ItemSep + StatusText(status)
  }

  /** `item.text().split(" (")[0]`, the path as the window recovers it. */
  function PathOfLabel(text: string): (r: string)
    ensures |r| <= |text| && r == text[..|r|]
    ensures !Contains(text, ItemSep) <==> r == text
  {
    FirstField(text, ItemSep)
  }

  /** The recovery works for every path without " (" in it. */
  lemma PathOfLabelRoundTrip(path: string, status: ItemStatus)
    requires !Contains(path, ItemSep)
    ensures PathOfLabel(ItemLabel(path, status)) == path
  {
    if !status.Pending? {
      FirstFieldOfJoinedPair(path, ItemSep, StatusText(status));
    }
  }

  /** The paths the window reads off its labels (the de-dup lists and the
      batch's input). */
  function PathsOfLabels(labels: seq<string>): (r: seq<string>)
    ensures |r| == |labels|
    ensures forall k :: 0 <= k < |r| ==> r[k] == PathOfLabel(labels[k])
  {
    seq(|labels|, k requires 0 <= k < |labels| => PathOfLabel(labels[k]))
  }

  /** The first index at or after `from` whose path has `filename` as its base
      name. */
  function FirstMatchFrom(paths: seq<string>, filename: string, from: nat): (r: Option<nat>)
    requires from <= |paths|
    ensures r.Some? ==> from <= r.value < |paths| && Basename(paths[r.value]) == filename
    ensures r.Some? ==> forall j :: from <= j < r.value ==> Basename(paths[j]) != filename
    ensures r.None? ==> forall j :: from <= j < |paths| ==> Basename(paths[j]) != filename
    decreases |paths| - from
  {
    if from == |paths| then None
    else if Basename(paths[from]) == filename then Some(from)
    else FirstMatchFrom(paths, filename, from + 1)
  }

  /** The batch handler's marking of one file's outcome: the first item
      whose recovered path has `filename` as its base name is relabelled with
      its recovered path and the new status; nothing changes when none has. */
  function MarkFile(labels: seq<string>, filename: string, status: ItemStatus): (r: seq<string>)
    ensures |r| == |labels|
    ensures forall k :: 0 <= k < |labels| && r[k] != labels[k] ==>
      Basename(PathOfLabel(labels[k])) == filename && r[k] == ItemLabel(PathOfLabel(labels[k]), status)
    ensures forall k :: 0 <= k < |labels| && r[k] != labels[k] ==>
      forall j :: 0 <= j < |labels| && j != k ==> r[j] == labels[j] && (j < k ==> Basename(PathOfLabel(labels[j])) != filename)
    ensures forall k :: 0 <= k < |labels| && Basename(PathOfLabel(labels[k])) == filename ==>
      exists i :: 0 <= i <= k && r[i] == ItemLabel(PathOfLabel(labels[i]), status)
    ensures forall k :: 0 <= k < |labels| && Basename(PathOfLabel(labels[k])) == filename
                        && (forall j :: 0 <= j < k ==> Basename(PathOfLabel(labels[j])) != filename)
                        ==> r[k] == ItemLabel(PathOfLabel(labels[k]), status)
  {
    var paths := PathsOfLabels(labels);
    match FirstMatchFrom(paths, filename, 0)
    case None => labels
    case Some(i) =>
      var r := labels[i := ItemLabel(paths[i], status)];
      assert forall k :: 0 <= k < |labels| && Basename(PathOfLabel(labels[k])) == filename ==>
        i <= k && r[i] == ItemLabel(PathOfLabel(labels[i]), status);
      r
  }

  /** Marking a path again replaces its status instead of stacking a second
      one, as long as the path has no " (" in it. */
  lemma MarkReplacesStatus(path: string, previous: ItemStatus, status: ItemStatus)
    requires !Contains(path, ItemSep) && !status.Pending?
    ensures MarkFile([ItemLabel(path, previous)], Basename(path), status) == [ItemLabel(path, status)]
  {
    PathOfLabelRoundTrip(path, previous);
  }

  /** Starting a batch: the paths read off the labels and the labels reset to
      those paths. */
  function StartBatchAsWritten(labels: seq<string>): (paths: seq<string>)
    ensures |paths| == |labels|
  {
    PathsOfLabels(labels)
  }

  /** For paths without " (", the batch receives exactly the listed paths,
      whatever their labels show. */
  lemma {:induction false} StartBatchReadsListedPaths(paths: seq<string>, statuses: seq<ItemStatus>)
    requires |statuses| == |paths|
    requires forall k :: 0 <= k < |paths| ==> !Contains(paths[k], ItemSep)
    ensures StartBatchAsWritten(seq(|paths|, k requires 0 <= k < |paths| => ItemLabel(paths[k], statuses[k]))) == paths
  {
    var labels := seq(|paths|, k requires 0 <= k < |paths| => ItemLabel(paths[k], statuses[k]));
    forall k | 0 <= k < |paths| ensures PathOfLabel(labels[k]) == paths[k] {
      PathOfLabelRoundTrip(paths[k], statuses[k]);
    }
  }

  /** A path with " (" in it, as file managers name copies, is cut at that
      point: the batch is handed a different, usually missing, file and the
      item is relabelled with the cut path. */
  lemma ParenthesisedPathIsCut()
    ensures PathOfLabel("/v/clip (1).mp4") == "/v/clip"
    ensures StartBatchAsWritten(["/v/clip (1).mp4"]) == ["/v/clip"]
  {
    var path := "/v/clip";
    assert forall k :: 0 <= k < |path| ==> path[k] != ItemSep[0];
    NotContainsWithoutFirstChar(path, ItemSep);
    FirstFieldOfJoinedPair(path, ItemSep, "1).mp4");
    assert path + ItemSep + "1).mp4" == "/v/clip (1).mp4";
  }

  /** As written, the de-dup compares against cut paths, so the same
      parenthesised path is added a second time. */
  lemma ParenthesisedPathAddedTwice()
    ensures Fresh(PathsOfLabels(["/v/clip (1).mp4"]), ["/v/clip (1).mp4"]) == ["/v/clip (1).mp4"]
  {
    ParenthesisedPathIsCut();
    assert PathsOfLabels(["/v/clip (1).mp4"]) == ["/v/clip"];
    assert ["/v/clip (1).mp4"][..0] == [];
  }

  /** The corrected list: every item keeps its path beside its label, so
      nothing is recovered from text. */
  datatype ListItem = ListItem(path: string, status: ItemStatus)

  function ItemPaths(items: seq<ListItem>): (r: seq<string>)
    ensures |r| == |items|
    ensures forall k :: 0 <= k < |r| ==> r[k] == items[k].path
  {
    seq(|items|, k requires 0 <= k < |items| => items[k].path)
  }

  /** Starting a batch, corrected: the stored paths, and every status reset. */
  function StartBatch(items: seq<ListItem>): (r: (seq<string>, seq<ListItem>))
    ensures r.0 == ItemPaths(items) && ItemPaths(r.1) == ItemPaths(items)
    ensures forall k :: 0 <= k < |r.1| ==> r.1[k].status == Pending
  {
    (ItemPaths(items), seq(|items|, k requires 0 <= k < |items| => ListItem(items[k].path, Pending)))
  }

  /** Corrected de-dup: adding to a list compares against the stored paths,
      so a listed path is never added again and the list stays free of
      duplicates, whatever characters the paths hold. */
  lemma CorrectedAddNeverDuplicates(items: seq<ListItem>, chosen: seq<string>)
    requires NoDuplicates(ItemPaths(items))
    ensures forall x :: x in ItemPaths(items) ==> x !in Fresh(ItemPaths(items), chosen)
    ensures NoDuplicates(ItemPaths(items) + Fresh(ItemPaths(items), chosen))
  {
    FreshContents(ItemPaths(items), chosen);
    ListStaysDuplicateFree(ItemPaths(items), chosen);
  }

  /** Corrected marking: the first item whose path has `filename` as its base
      name gets the new status; no path ever changes. */
  function MarkItem(items: seq<ListItem>, filename: string, status: ItemStatus): (r: seq<ListItem>)
    ensures ItemPaths(r) == ItemPaths(items)
    ensures forall k :: 0 <= k < |items| && r[k] != items[k] ==>
      Basename(items[k].path) == filename && r[k].status == status
    ensures forall k :: 0 <= k < |items| && r[k] != items[k] ==>
      forall j :: 0 <= j < |items| && j != k ==> r[j] == items[j] && (j < k ==> Basename(items[j].path) != filename)
    ensures forall k :: 0 <= k < |items| && Basename(items[k].path) == filename ==>
      exists i :: 0 <= i <= k && r[i].status == status
    ensures forall k :: 0 <= k < |items| && Basename(items[k].path) == filename
                        && (forall j :: 0 <= j < k ==> Basename(items[j].path) != filename)
                        ==> r[k].status == status
  {
    var paths := ItemPaths(items);
    match FirstMatchFrom(paths, filename, 0)
    case None => items
    case Some(i) =>
      var r := items[i := ListItem(items[i].path, status)];
      assert forall k :: 0 <= k < |items| && Basename(items[k].path) == filename ==> i <= k && r[i].status == status;
      r
  }

  /** Two listed files with the same base name: an outcome is always shown on
      the first of them. */
  lemma SameBaseNameMarksFirst(a: string, b: string, status: ItemStatus)
    requires Basename(a) == Basename(b)
    ensures MarkItem([ListItem(a, Pending), ListItem(b, Pending)], Basename(b), status)
            == [ListItem(a, status), ListItem(b, Pending)]
  {
    assert ItemPaths([ListItem(a, Pending), ListItem(b, Pending)]) == [a, b];
  }

  /** The corrected batch start hands over the parenthesised path unchanged. */
  lemma ParenthesisedPathKept()
    ensures StartBatch([ListItem("/v/clip (1).mp4", Errored)]).0 == ["/v/clip (1).mp4"]
  {
  }
}

=== FILE: paths.dfy ===
/** POSIX path helpers as Python's `os.path` computes them: `basename`,
    `dirname`, `splitext` and `join`, with '/' as the only separator. */
module Paths {
  import opened Wrappers
  import Text

  const Sep: char := '/'
  const ExtSep: char := '.'

  /** `s.rfind(c)`, with `None` for Python's -1. */
  function LastIndexOf(s: string, c: char): (r: Option<nat>)
    ensures r.Some? ==> r.value < |s| && s[r.value] == c
    ensures r.Some? ==> forall k :: r.value < k < |s| ==> s[k] != c
    ensures r.None? <==> c !in s
    decreases |s|
  {
    if |s| == 0 then None
    else if s[|s| - 1] == c then Some(|s| - 1)
    else LastIndexOf(s[..|s| - 1], c)
  }

  /** `s.rfind(c)` as Python returns it. */
  function RFind(s: string, c: char): (r: int)
    ensures -1 <= r < |s|
  {
    match LastIndexOf(s, c)
    case None => -1
    case Some(k) => k
  }

  /** `os.path.basename(p)`: everything after the last separator. */
  function Basename(p: string): (r: string)
    ensures Sep !in r
    ensures |r| <= |p| && p[|p| - |r|..] == r
    ensures Sep !in p ==> r == p
  {
    var i := RFind(p, Sep) + 1;
    p[i..]
  }

  /** `os.path.dirname(p)`: everything up to the last separator, with trailing
      separators removed unless the head consists of separators only. */
  function Dirname(p: string): (r: string)
    ensures |r| <= |p| && r == p[..|r|]
    ensures Sep !in p ==> r == ""
    ensures r == [] || AllSeparators(r) || r[|r| - 1] != Sep
  {
    var head := p[..RFind(p, Sep) + 1];
    if head != [] && !AllSeparators(head) then RStripSeparators(head) else head
  }

  predicate AllSeparators(s: string) {
    forall k :: 0 <= k < |s| ==> s[k] == Sep
  }

  function RStripSeparators(s: string): (r: string)
    ensures |r| <= |s| && r == s[..|r|]
    ensures |r| > 0 ==> r[|r| - 1] != Sep
    decreases |s|
  {
    if |s| > 0 && s[|s| - 1] == Sep then RStripSeparators(s[..|s| - 1]) else s
  }

  /** `os.path.splitext(p)`: the extension starts at the last dot of the last
      component, provided some non-dot character precedes it there (leading
      dots of a name such as ".bashrc" do not start an extension). */
  function SplitExt(p: string): (r: (string, string))
    ensures r.0 + r.1 == p
    ensures r.1 == [] || (r.1[0] == ExtSep && Sep !in r.1 && ExtSep !in r.1[1..])
  {
    var sepIndex := RFind(p, Sep);
    var dotIndex := RFind(p, ExtSep);
    if dotIndex > sepIndex && exists k :: sepIndex + 1 <= k < dotIndex && p[k] != ExtSep then
      assert p[..dotIndex] + p[dotIndex..] == p;
      (p[..dotIndex], p[dotIndex..])
    else
      assert p + [] == p;
      (p, [])
  }

  /** `os.path.splitext(os.path.basename(p))[0]`: the file name without its
      last extension. */
  function Stem(p: string): (r: string)
    ensures Sep !in r
  {
    SplitExt(Basename(p)).0
  }

  /** `os.path.join(a, b)` for two components. */
  function Join(a: string, b: string): (r: string)
    ensures Text.EndsWith(r, b)
  {
    if |b| > 0 && b[0] == Sep then b
    else if a == [] || a[|a| - 1] == Sep then a + b
    else a + [Sep] + b
  }

  /** Joining a directory with a plain file name and taking the base name
      again gives the file name back. */
  lemma BasenameOfJoin(dir: string, name: string)
    requires Sep !in name
    ensures Basename(Join(dir, name)) == name
  {
    var r := Join(dir, name);
    var k := RFind(r, Sep);
    assert forall j :: |r| - |name| <= j < |r| ==> r[j] == name[j - (|r| - |name|)];
    if |name| < |r| {
      assert r[|r| - |name| - 1] == Sep;
      assert k == |r| - |name| - 1;
    } else {
      assert r == name;
    }
  }

  /** A name made of a non-dot first character and no separator, followed by
      an extension without dots, splits at that extension. */
  lemma SplitExtOfName(name: string, ext: string)
    requires |name| > 0 && name[0] != ExtSep && Sep !in name
    requires |ext| > 0 && ext[0] == ExtSep && Sep !in ext && ExtSep !in ext[1..]
    ensures SplitExt(name + ext) == (name, ext)
  {
    var p := name + ext;
    var dotIndex := RFind(p, ExtSep);
    assert p[|name|] == ExtSep;
    assert forall j :: |name| < j < |p| ==> p[j] == ext[1..][j - |name| - 1];
    assert dotIndex == |name|;
    assert RFind(p, Sep) == -1;
    assert p[0] != ExtSep;
    assert p[..dotIndex] == name;
  }

  /** A file name with an extension, joined to a directory, keeps its name
      and its stem. */
  lemma StemOfJoin(dir: string, name: string, ext: string)
    requires |name| > 0 && name[0] != ExtSep && Sep !in name
    requires |ext| > 0 && ext[0] == ExtSep && Sep !in ext && ExtSep !in ext[1..]
    ensures Basename(Join(dir, name + ext)) == name + ext
    ensures Stem(Join(dir, name + ext)) == name
  {
    assert Sep !in name + ext by {
      assert forall k :: 0 <= k < |name + ext| ==> (name + ext)[k] == if k < |name| then name[k] else ext[k - |name|];
    }
    BasenameOfJoin(dir, name + ext);
    SplitExtOfName(name, ext);
  }

  /** The directory part of a joined path does not depend on the plain file
      name joined. */
  lemma DirnameOfJoin(dir: string, a: string, b: string)
    requires Sep !in a && Sep !in b && |a| > 0 && |b| > 0
    ensures Dirname(Join(dir, a)) == Dirname(Join(dir, b))
  {
    var ja, jb := Join(dir, a), Join(dir, b);
    var ka, kb := RFind(ja, Sep), RFind(jb, Sep);
    assert forall j :: |ja| - |a| <= j < |ja| ==> ja[j] == a[j - (|ja| - |a|)];
    assert forall j :: |jb| - |b| <= j < |jb| ==> jb[j] == b[j - (|jb| - |b|)];
    assert ja[..|ja| - |a|] == jb[..|jb| - |b|];
    if |a| < |ja| {
      assert ja[|ja| - |a| - 1] == Sep;
      assert ka == |ja| - |a| - 1;
      assert kb == |jb| - |b| - 1;
      assert ja[..ka + 1] == jb[..kb + 1];
    } else {
      assert ka == -1 && kb == -1;
    }
  }

  /** Concatenating two texts without separators gives one without. */
  lemma SepFreeConcat(a: string, b: string)
    requires Sep !in a && Sep !in b
    ensures Sep !in a + b
  {
    assert forall k :: 0 <= k < |a + b| ==> (a + b)[k] == if k < |a| then a[k] else b[k - |a|];
  }

  /** A plain file name joined to the directory of a path lands in that same
      directory. */
  lemma DirnameOfJoinDirname(p: string, name: string)
    requires Sep !in name && |name| > 0
    ensures Dirname(Join(Dirname(p), name)) == Dirname(p)
  {
    var d := Dirname(p);
    if d == [] {
      assert Join(d, name) == name;
    } else if d[|d| - 1] == Sep {
      DirnameAfterSeparator(d, name);
    } else {
      DirnameAfterSeparator(d + [Sep], name);
      assert d + [Sep] + name == (d + [Sep]) + name;
      assert RStripSeparators(d + [Sep]) == RStripSeparators(d) by {
        assert (d + [Sep])[..|d|] == d;
      }
      assert !AllSeparators(d + [Sep]) by {
        assert (d + [Sep])[|d| - 1] != Sep;
      }
    }
  }

  /** In `head + name`, where `head` ends with a separator and `name` has none,
      the last separator is the end of `head`. */
  lemma DirnameAfterSeparator(head: string, name: string)
    requires |head| > 0 && head[|head| - 1] == Sep && Sep !in name
    ensures RFind(head + name, Sep) == |head| - 1
    ensures (head + name)[..|head|] == head
    ensures Dirname(head + name) == if AllSeparators(head) then head else RStripSeparators(head)
  {
    var j := head + name;
    assert forall k :: |head| <= k < |j| ==> j[k] == name[k - |head|];
    assert j[|head| - 1] == Sep;
  }
}

=== FILE: retention_laws.dfy ===
/** Laws of the retention engine of core/video_processor.py that relate runs
    to each other or to closed forms: thresholds act monotonically on what is
    kept, the stop point does not depend on the detector, reversal only
    permutes, the speed is the kept share, and the cancellation scenarios. */
module RetentionLaws {
  import opened Wrappers
  import opened Detector
  import opened VideoProcessor

  /** The analysis stops at the same frame, for the same reason, under two
      configurations that share what the pixel work reads (the algorithm, the
      binarisation threshold and the blur size), so that the pixel work has
      the same outcomes: the stop point depends on the cancellation
      checkpoints, the readable frames and the pixel errors, never on a keep
      threshold. */
  lemma StopIndependentOfConfig(c1: Config, c2: Config, total: nat, frames: seq<Frame>,
                                measure: (Frame, Frame) -> Comparison, cancelAt: Option<nat>)
    requires c1.algorithm == c2.algorithm && c1.threshold == c2.threshold && c1.blurSize == c2.blurSize
    ensures Analyse(c1, total, frames, measure, cancelAt).processed
         == Analyse(c2, total, frames, measure, cancelAt).processed
    ensures Analyse(c1, total, frames, measure, cancelAt).stop
         == Analyse(c2, total, frames, measure, cancelAt).stop
  {
    var a := ScanFrom(c1, total, frames, measure, cancelAt, 0, None);
    var b := ScanFrom(c2, total, frames, measure, cancelAt, 0, None);
    StopPointIsFirst(a, b, total, frames, measure, cancelAt);
    StopPointIsFirst(b, a, total, frames, measure, cancelAt);
  }

  /** A scan cannot stop before another scan of the same frames. */
  lemma StopPointIsFirst(a: Scan, b: Scan, total: nat, frames: seq<Frame>,
                         measure: (Frame, Frame) -> Comparison, cancelAt: Option<nat>)
    requires a.processed <= total && a.processed <= |frames|
    requires b.processed <= total && b.processed <= |frames|
    requires forall j :: 0 <= j < b.processed ==> !CancelSeen(cancelAt, j) && !FaultAt(total, frames, measure, j)
    requires a.stop == Exhausted <==> a.processed == total
    requires a.stop == ReadFailed ==> a.processed == |frames| && !CancelSeen(cancelAt, a.processed)
    requires a.stop == CancelRequested ==> CancelSeen(cancelAt, a.processed)
    requires a.stop == DetectorFault ==>
      FaultAt(total, frames, measure, a.processed) && !CancelSeen(cancelAt, a.processed)
    requires b.stop == Exhausted <==> b.processed == total
    requires b.stop == ReadFailed ==> b.processed == |frames| && !CancelSeen(cancelAt, b.processed)
    requires b.stop == CancelRequested ==> CancelSeen(cancelAt, b.processed)
    requires b.stop == DetectorFault ==>
      FaultAt(total, frames, measure, b.processed) && !CancelSeen(cancelAt, b.processed)
    ensures a.processed >= b.processed
    ensures a.processed == b.processed ==> a.stop == b.stop
  {
  }

  /** What a stricter configuration keeps among frames `lo .. hi - 1`, a
      laxer one keeps as well; hence it keeps no more of them. */
  lemma {:induction false} StricterKeepsSubset(strict: Config, lax: Config, total: nat, frames: seq<Frame>,
                                               measure: (Frame, Frame) -> Comparison, lo: nat, hi: nat)
    requires AtLeastAsStrict(strict, lax) && lo <= hi <= |frames|
    ensures forall x :: x in KeptBetween(strict, total, frames, measure, lo, hi)
                     ==> x in KeptBetween(lax, total, frames, measure, lo, hi)
    ensures |KeptBetween(strict, total, frames, measure, lo, hi)|
         <= |KeptBetween(lax, total, frames, measure, lo, hi)|
    decreases hi - lo
  {
    if lo < hi {
      StricterKeepsSubset(strict, lax, total, frames, measure, lo + 1, hi);
      if lo > 0 && lo != total - 1 {
        StricterKeepsLess(strict, lax, measure(frames[lo - 1], frames[lo]));
      }
    }
  }

  /** Threshold monotonicity of the analysis: the frames a stricter
      configuration keeps are among those a laxer one keeps. */
  lemma StricterAnalysisKeepsSubset(strict: Config, lax: Config, total: nat, frames: seq<Frame>,
                                    measure: (Frame, Frame) -> Comparison, cancelAt: Option<nat>)
    requires AtLeastAsStrict(strict, lax)
    ensures forall x :: x in Analyse(strict, total, frames, measure, cancelAt).kept
                     ==> x in Analyse(lax, total, frames, measure, cancelAt).kept
    ensures |Analyse(strict, total, frames, measure, cancelAt).kept|
         <= |Analyse(lax, total, frames, measure, cancelAt).kept|
  {
    StopIndependentOfConfig(strict, lax, total, frames, measure, cancelAt);
    var p := Analyse(strict, total, frames, measure, cancelAt).processed;
    StricterKeepsSubset(strict, lax, total, frames, measure, 0, p);
  }

  /** Two runs of the same video that differ only in their parameters end alike
      when nothing cancels them, and when the stricter one finishes it reports
      no more kept frames than the laxer one. */
  lemma StricterRunKeepsFewer(job: Job, strict: Params, lax: Params, src: Source,
                              measure: (Frame, Frame) -> Comparison)
    requires AtLeastAsStrict(ResolveConfig(job.algorithm, strict), ResolveConfig(job.algorithm, lax))
    ensures var s := Run(job.(params := strict), src, measure, None);
            var l := Run(job.(params := lax), src, measure, None);
            && (Last(s.events).Finished? <==> Last(l.events).Finished?)
            && (Last(s.events).Finished? ==> Last(s.events).kept <= Last(l.events).kept)
  {
    var js, jl := job.(params := strict), job.(params := lax);
    var s := Run(js, src, measure, None);
    var l := Run(jl, src, measure, None);
    if src.inputOpened && ValidMetadata(src) && !OutputDirFails(job, src) && src.writerOpened {
      var cs, cl := ResolveConfig(job.algorithm, strict), ResolveConfig(job.algorithm, lax);
      assert OutputDirFails(js, src) == OutputDirFails(job, src) == OutputDirFails(jl, src);
      assert s == Process(js, src, measure, None);
      assert l == Process(jl, src, measure, None);
      StopIndependentOfConfig(cs, cl, src.frameCount, src.frames, measure, None);
      StricterAnalysisKeepsSubset(cs, cl, src.frameCount, src.frames, measure, None);
      assert Last(s.events).Finished? <==> Last(l.events).Finished?;
    } else {
      assert !Last(s.events).Finished? && !Last(l.events).Finished?;
    }
  }

  /** A larger `f_diff_min_area` never makes a finished run keep more frames. */
  lemma MinAreaMonotone(job: Job, src: Source, measure: (Frame, Frame) -> Comparison, small: int, large: int)
    requires small <= large
    ensures var s := Run(job.(params := job.params.(fDiffMinArea := Some(large))), src, measure, None);
            var l := Run(job.(params := job.params.(fDiffMinArea := Some(small))), src, measure, None);
            Last(s.events).Finished? && Last(l.events).Finished? ==> Last(s.events).kept <= Last(l.events).kept
  {
    StricterRunKeepsFewer(job, job.params.(fDiffMinArea := Some(large)),
                          job.params.(fDiffMinArea := Some(small)), src, measure);
  }

  /** A larger `ssim_threshold` never makes a finished run keep fewer frames. */
  lemma SsimThresholdMonotone(job: Job, src: Source, measure: (Frame, Frame) -> Comparison, low: real, high: real)
    requires low <= high
    ensures var s := Run(job.(params := job.params.(ssimThreshold := Some(low))), src, measure, None);
            var l := Run(job.(params := job.params.(ssimThreshold := Some(high))), src, measure, None);
            Last(s.events).Finished? && Last(l.events).Finished? ==> Last(s.events).kept <= Last(l.events).kept
  {
    StricterRunKeepsFewer(job, job.params.(ssimThreshold := Some(low)),
                          job.params.(ssimThreshold := Some(high)), src, measure);
  }

  /** A larger `flow_threshold` never makes a finished run keep more frames. */
  lemma FlowThresholdMonotone(job: Job, src: Source, measure: (Frame, Frame) -> Comparison, low: real, high: real)
    requires low <= high
    ensures var s := Run(job.(params := job.params.(flowThreshold := Some(high))), src, measure, None);
            var l := Run(job.(params := job.params.(flowThreshold := Some(low))), src, measure, None);
            Last(s.events).Finished? && Last(l.events).Finished? ==> Last(s.events).kept <= Last(l.events).kept
  {
    StricterRunKeepsFewer(job, job.params.(flowThreshold := Some(high)),
                          job.params.(flowThreshold := Some(low)), src, measure);
  }

  /** Reversal only permutes: the same frames, each as often. */
  lemma {:induction false} ReversalKeepsMultiset(s: seq<nat>)
    ensures multiset(Reverse(s)) == multiset(s)
  {
    if |s| > 0 {
      ReversalKeepsMultiset(s[1..]);
      assert Reverse(s) == Reverse(s[1..]) + [s[0]];
      assert s == [s[0]] + s[1..];
    }
  }

  /** With an algorithm name the engine does not recognise, no comparison
      applies: of the frames a range covers, exactly the first and the last
      frame of the video are kept. */
  lemma UnrecognisedKeepsOnlyEnds(c: Config, total: nat, frames: seq<Frame>,
                                  measure: (Frame, Frame) -> Comparison, lo: nat, hi: nat)
    requires c.algorithm == Unrecognised && hi <= |frames|
    ensures forall k :: 0 <= k < |KeptBetween(c, total, frames, measure, lo, hi)| ==>
              KeptBetween(c, total, frames, measure, lo, hi)[k] in {0, total - 1}
    ensures forall j :: lo <= j < hi && (j == 0 || j == total - 1) ==> j in KeptBetween(c, total, frames, measure, lo, hi)
  {
  }

  /** Reversing the retained frames twice restores the source order, and the
      write order has the same length either way. */
  lemma ReversalIsInvolution(s: seq<nat>)
    ensures Reverse(Reverse(s)) == s
    ensures |WriteOrder(s, true)| == |WriteOrder(s, false)|
  {
    assert forall k :: 0 <= k < |s| ==> Reverse(Reverse(s))[k] == s[k];
  }

  /** 40 of 100 frames give 40 percent; keeping every frame gives 100. */
  lemma SpeedExamples(n: nat, fps: real)
    requires n > 0 && fps > 0.0
    ensures SpeedPercent(40, 100, 30.0) == 40.0
    ensures SpeedPercent(n, n, fps) == 100.0
  {
    SpeedIsKeptShare(40, 100, 30.0);
    SpeedIsKeptShare(n, n, fps);
  }

  /** A one-frame video that reads finishes with that frame kept and a speed of
      100 percent. */
  lemma OneFrameVideo(job: Job, src: Source, measure: (Frame, Frame) -> Comparison)
    requires src.inputOpened && src.frameCount == 1 && src.width > 0 && src.height > 0
    requires !OutputDirFails(job, src) && src.writerOpened && |src.frames| >= 1
    ensures Last(Run(job, src, measure, None).events).Finished?
    ensures Last(Run(job, src, measure, None).events).kept == 1
    ensures Last(Run(job, src, measure, None).events).speed == 100.0
  {
    var c := ResolveConfig(job.algorithm, job.params);
    var scan := Analyse(c, 1, src.frames, measure, None);
    assert scan.processed == 1;
    SpeedIsKeptShare(1, 1, EffectiveFps(src.fps));
  }

  /** A stop request first seen at checkpoint `k` of the analysis, before
      anything else ended it, cancels the run after exactly `k` processed
      frames: the signals are the initial progress, `k` progress signals and
      the cancellation error, and nothing is written. */
  lemma CancelDuringAnalysis(job: Job, src: Source, measure: (Frame, Frame) -> Comparison, k: nat)
    requires src.inputOpened && ValidMetadata(src) && !OutputDirFails(job, src) && src.writerOpened
    requires k < src.frameCount && k <= |src.frames|
    requires forall j :: 0 <= j < k ==> !FaultAt(src.frameCount, src.frames, measure, j)
    ensures var o := Run(job, src, measure, Some(k));
            && Last(o.events) == Error(Cancelled)
            && |o.events| == k + 2
            && o.events[k].current == k
            && o.written == []
  {
    var c := ResolveConfig(job.algorithm, job.params);
    var scan := ScanFrom(c, src.frameCount, src.frames, measure, Some(k), 0, None);
    assert scan == Analyse(c, src.frameCount, src.frames, measure, Some(k));
    var total: nat := src.frameCount;
    assert k < scan.processed ==> !CancelSeen(Some(k), k);
    assert scan.processed < k ==> !FaultAt(total, src.frames, measure, scan.processed);
    assert scan.processed == k;
    assert scan.stop == CancelRequested;
    assert Run(job, src, measure, Some(k)) == Process(job, src, measure, Some(k));
  }
}

=== FILE: settings.dfy ===
/** The persisted settings of utils/settings.py: the table of defaults, the
    load-and-merge step, and `get`/`set`. The file system is an input: what
    reading the file gave, and whether the file can be renamed. */
module Settings {
  import opened Wrappers
  import Detector

  /** A JSON value as the settings hold it; `Other` stands for lists, objects
      and null, which no default has. */
  datatype Value = Bool(b: bool) | Int(i: int) | Real(r: real) | Str(s: string) | Other

  /** `default_settings`. */
  function Defaults(): map<string, Value> {
    map[
      "reverse_video" := Bool(false),
      "preview_frame_index" := Int(100),
      "last_input_dir" := Str(""),
      "last_output_dir" := Str(""),
      "selected_algorithm" := Str(Detector.AlgoFrameDiff),
      "f_diff_threshold" := Int(15),
      "f_diff_min_area" := Int(500),
      "f_diff_blur_size" := Int(5),
      "ssim_threshold" := Real(0.98),
      "ssim_blur_size" := Int(5),
      "flow_threshold" := Real(1.0),
      "flow_blur_size" := Int(7)
    ]
  }

  /** The keys of `default_settings` in the order the verification loop visits
      them. */
  const DefaultKeys: seq<string> := [
    "reverse_video", "preview_frame_index", "last_input_dir", "last_output_dir",
    "selected_algorithm", "f_diff_threshold", "f_diff_min_area", "f_diff_blur_size",
    "ssim_threshold", "ssim_blur_size", "flow_threshold", "flow_blur_size"
  ]

  lemma DefaultKeysListDefaults()
    ensures forall k :: 0 <= k < |DefaultKeys| ==> DefaultKeys[k] in Defaults()
    ensures forall key :: key in Defaults() ==> key in DefaultKeys
  {
  }

  /** What reading `settings_v2.1.json` gave. */
  datatype LoadOutcome =
    | Missing                           // `FileNotFoundError`
    | Corrupt(renamed: bool)            // `JSONDecodeError`; whether the backup rename succeeded
    | Unreadable                        // any other exception
    | Loaded(values: map<string, Value>)  // a JSON object

  /** The object the merge starts from: empty when nothing was read. */
  function LoadedValues(outcome: LoadOutcome): map<string, Value> {
    if outcome.Loaded? then outcome.values else map[]
  }

  /** Whether the settings file exists once `load` has read it. */
  function FileExistsAfterReading(outcome: LoadOutcome): (exists_: bool)
    ensures !exists_ <==> outcome.Missing? || (outcome.Corrupt? && outcome.renamed)
  {
    match outcome
    case Missing => false
    case Corrupt(renamed) => !renamed
    case Unreadable => true
    case Loaded(_) => true
  }

  /** The merge: the defaults, updated with the loaded object when it is not
      empty. */
  function Merge(loaded: map<string, Value>): (m: map<string, Value>)
    ensures m.Keys == Defaults().Keys + loaded.Keys
    ensures forall k :: k in loaded ==> m[k] == loaded[k]
    ensures forall k :: k in Defaults() && k !in loaded ==> m[k] == Defaults()[k]
  {
    if |loaded| == 0 then Defaults() else Defaults() + loaded
  }

  /** The verification loop: every key of `keys` missing from `settings` is
      added with its value from `defaults`, and reported. */
  method FillMissing(settings: map<string, Value>, keys: seq<string>, defaults: map<string, Value>)
    returns (filled: map<string, Value>, needsSave: bool)
    requires forall k :: 0 <= k < |keys| ==> keys[k] in defaults
    ensures filled.Keys == settings.Keys + (set k | 0 <= k < |keys| :: keys[k])
    ensures forall key :: key in settings ==> filled[key] == settings[key]
    ensures forall key :: key in filled && key !in settings ==> filled[key] == defaults[key]
    ensures needsSave <==> exists k :: 0 <= k < |keys| && keys[k] !in settings
    ensures (forall k :: 0 <= k < |keys| ==> keys[k] in settings) ==> filled == settings
  {
    filled, needsSave := settings, false;
    var i := 0;
    while i < |keys|
      invariant 0 <= i <= |keys|
      invariant filled.Keys == settings.Keys + (set k | 0 <= k < i :: keys[k])
      invariant forall key :: key in settings ==> filled[key] == settings[key]
      invariant forall key :: key in filled && key !in settings ==> key in defaults && filled[key] == defaults[key]
      invariant needsSave <==> exists k :: 0 <= k < i && keys[k] !in settings
    {
      var key := keys[i];
      if key !in filled {
        filled := filled[key := defaults[key]];
        needsSave := true;
      }
      i := i + 1;
    }
  }

  lemma DefaultKeysInMerge(loaded: map<string, Value>)
    ensures forall k :: 0 <= k < |DefaultKeys| ==> DefaultKeys[k] in Merge(loaded)
  {
    DefaultKeysListDefaults();
  }

  datatype LoadResult = LoadResult(settings: map<string, Value>, saveRequested: bool)

  /** `Settings.load`: merge, fill in missing keys, save when a key was
      added or the file is absent. */
  method Load(outcome: LoadOutcome) returns (r: LoadResult)
    ensures r.settings == Merge(LoadedValues(outcome))
    ensures r.saveRequested <==> !FileExistsAfterReading(outcome)
  {
    var merged := Merge(LoadedValues(outcome));
    DefaultKeysInMerge(LoadedValues(outcome));
    DefaultKeysListDefaults();
    var filled, needsSave := FillMissing(merged, DefaultKeys, Defaults());
    r := LoadResult(filled, needsSave || !FileExistsAfterReading(outcome));
  }

  /** `Settings.get`: the stored value, else the default, else nothing. */
  function Get(settings: map<string, Value>, key: string): (v: Option<Value>)
    ensures key in settings ==> v == Some(settings[key])
    ensures key !in settings && key in Defaults() ==> v == Some(Defaults()[key])
    ensures v.None? <==> key !in settings && key !in Defaults()
  {
    if key in settings then Some(settings[key])
    else if key in Defaults() then Some(Defaults()[key])
    else None
  }

  /** `Settings.set`: the new value under `key`, then a save. */
  function Set(settings: map<string, Value>, key: string, value: Value): (r: map<string, Value>)
    ensures r.Keys == settings.Keys + {key}
    ensures r[key] == value
    ensures forall other :: other in settings && other != key ==> r[other] == settings[other]
  {
    settings[key := value]
  }

  /** After loading, every default key has a value; the loaded object wins
      over the defaults, and a file that gave nothing gives the defaults. */
  lemma LoadedSettingsCoverDefaults(outcome: LoadOutcome)
    ensures forall key :: key in Defaults() ==> key in Merge(LoadedValues(outcome))
    ensures outcome.Loaded? ==> forall key :: key in outcome.values ==> Merge(LoadedValues(outcome))[key] == outcome.values[key]
    ensures !outcome.Loaded? ==> Merge(LoadedValues(outcome)) == Defaults()
  {
  }

  /** `get` after `set` gives the value set, and every other key keeps what
      `get` gave before. */
  lemma GetAfterSet(settings: map<string, Value>, key: string, value: Value, other: string)
    ensures Get(Set(settings, key, value), key) == Some(value)
    ensures other != key ==> Get(Set(settings, key, value), other) == Get(settings, other)
  {
  }

  /** `get` gives a value for every default key, whatever was loaded. */
  lemma GetCoversDefaults(outcome: LoadOutcome, key: string)
    requires key in Defaults()
    ensures Get(Merge(LoadedValues(outcome)), key).Some?
    ensures outcome.Loaded? && key !in outcome.values ==> Get(Merge(LoadedValues(outcome)), key) == Some(Defaults()[key])
  {
  }

  /** The stored defaults agree with the engine's own defaults, and every
      stored blur size is one the engine keeps as it is. */
  lemma DefaultsAgreeWithEngine()
    ensures Defaults()["selected_algorithm"] == Str(Detector.AlgoFrameDiff)
    ensures Defaults()["f_diff_threshold"] == Int(Detector.DefaultThreshold)
    ensures Defaults()["f_diff_min_area"] == Int(Detector.DefaultMinArea)
    ensures Defaults()["ssim_threshold"] == Real(Detector.DefaultSsimThreshold)
    ensures Defaults()["flow_threshold"] == Real(Detector.DefaultFlowThreshold)
    ensures Defaults()["f_diff_blur_size"] == Int(Detector.DefaultFDiffBlur)
    ensures Defaults()["ssim_blur_size"] == Int(Detector.DefaultSsimBlur)
    ensures Defaults()["flow_blur_size"] == Int(Detector.DefaultFlowBlur)
    ensures forall b :: b in {Detector.DefaultFDiffBlur, Detector.DefaultSsimBlur, Detector.DefaultFlowBlur}
              ==> Detector.NormaliseBlur(b) == b
  {
  }
}

=== FILE: text.dfy ===
/** String helpers behind the application's text handling: decimal rendering and
    parsing of integers (`str(n)`, `int(s)`, `f"{n:02d}"`), `str.split(sep)[0]`,
    ASCII lower-casing and `str.endswith`. */
module Text {
  import opened Wrappers

  predicate IsDigit(c: char) {
    '0' <= c <= '9'
  }

  predicate AllDigits(s: string) {
    forall k :: 0 <= k < |s| ==> IsDigit(s[k])
  }

  function DigitChar(d: nat): (c: char)
    requires d < 10
    ensures IsDigit(c)
  {
    "0123456789"[d]
  }

  function DigitValue(c: char): nat
    requires IsDigit(c)
  {
    (c as int - '0' as int) as nat
  }

  /** `str(n)` for a non-negative integer: decimal digits, no leading zero. */
  function NatToString(n: nat): (s: string)
    ensures |s| > 0 && AllDigits(s)
    ensures s[0] == '0' ==> n == 0
    decreases n
  {
    if n < 10 then [DigitChar(n)] else NatToString(n / 10) + [DigitChar(n % 10)]
  }

  /** The number a string of decimal digits denotes (leading zeros allowed). */
  function DigitsValue(s: string): nat
    requires AllDigits(s)
    decreases |s|
  {
    if |s| == 0 then 0 else DigitsValue(s[..|s| - 1]) * 10 + DigitValue(s[|s| - 1])
  }

  lemma {:induction false} DigitsValueOfNatToString(n: nat)
    ensures DigitsValue(NatToString(n)) == n
    decreases n
  {
    var s := NatToString(n);
    if n < 10 {
      assert s[..|s| - 1] == [];
    } else {
      DigitsValueOfNatToString(n / 10);
      assert s[..|s| - 1] == NatToString(n / 10);
    }
  }

  /** `str(i)` for any integer. */
  function IntToString(i: int): (s: string)
    ensures |s| > 0
    ensures i >= 0 <==> s[0] != '-'
  {
    if i < 0 then "-" + NatToString(-i) else NatToString(i)
  }

  predicate IsSpace(c: char) {
    c == ' ' || c == '\t' || c == '\n' || c == '\r' || c == '\U{B}' || c == '\U{C}'
  }

  /** `s.strip()` restricted to ASCII white space. */
  function Strip(s: string): (r: string)
    ensures |r| <= |s|
    ensures |r| > 0 ==> !IsSpace(r[0]) && !IsSpace(r[|r| - 1])
    ensures AllDigits(s) ==> r == s
    decreases |s|
  {
    if |s| > 0 && IsSpace(s[0]) then Strip(s[1..])
    else if |s| > 0 && IsSpace(s[|s| - 1]) then Strip(s[..|s| - 1])
    else s
  }

  /** `int(s)` for text: optional surrounding white space, an optional sign and
      at least one decimal digit; anything else is the `ValueError` case. */
  function ParseInt(s: string): (r: Option<int>)
    ensures r.Some? ==> |Strip(s)| > 0
  {
    ParseStripped(Strip(s))
  }

  /** `int` once the white space is gone: an optional sign, then digits. */
  function ParseStripped(t: string): (r: Option<int>)
    ensures r.Some? ==> |t| > 0
  {
    if |t| > 0 && (t[0] == '-' || t[0] == '+') then
      var body := t[1..];
      if |body| > 0 && AllDigits(body) then
        var v: int := if t[0] == '-' then -(DigitsValue(body) as int) else DigitsValue(body);
        Some(v)
      else None
    else if |t| > 0 && AllDigits(t) then Some(DigitsValue(t))
    else None
  }

  /** Rendering an integer and reading it back gives the integer again. */
  lemma IntToStringRoundTrip(i: int)
    ensures ParseInt(IntToString(i)) == Some(i)
  {
    if i < 0 {
      var d := NatToString(-i);
      assert IntToString(i) == "-" + d;
      ParseNegative(d);
      DigitsValueOfNatToString(-i);
    } else {
      var d := NatToString(i);
      assert IntToString(i) == d;
      ParseDigits(d);
      DigitsValueOfNatToString(i);
    }
  }

  /** A minus sign followed by digits reads as the negated digits' value. */
  lemma ParseNegative(d: string)
    requires |d| > 0 && AllDigits(d)
    ensures ParseInt("-" + d) == Some(-(DigitsValue(d) as int))
  {
    var s := "-" + d;
    assert !IsSpace(s[0]) && !IsSpace(s[|s| - 1]) by {
      assert s[|s| - 1] == d[|d| - 1];
    }
    StripWithoutEdgeSpaces(s);
    assert s[1..] == d;
    assert ParseStripped(s) == Some(-(DigitsValue(d) as int));
  }

  /** Plain digits read as their value. */
  lemma ParseDigits(d: string)
    requires |d| > 0 && AllDigits(d)
    ensures ParseInt(d) == Some(DigitsValue(d))
  {
    assert Strip(d) == d;
    assert !(d[0] == '-' || d[0] == '+');
  }

  lemma StripWithoutEdgeSpaces(s: string)
    requires |s| > 0 && !IsSpace(s[0]) && !IsSpace(s[|s| - 1])
    ensures Strip(s) == s
  {
  }

  /** `f"{n:02d}"` for a non-negative integer: at least two digits, zero padded. */
  function Pad2(n: nat): (s: string)
    ensures |s| >= 2 && AllDigits(s)
    ensures n < 100 ==> |s| == 2
    ensures DigitsValue(s) == n
  {
    DigitsValueOfNatToString(n);
    if n < 10 then
      var s := "0" + NatToString(n);
      assert s[..|s| - 1] == "0";
      s
    else
      NatToString(n)
  }

  /** The text `sep` starts at position `k` of `s`. */
  predicate OccursAt(s: string, sep: string, k: nat) {
    k + |sep| <= |s| && s[k..k + |sep|] == sep
  }

  predicate Contains(s: string, sep: string) {
    exists k: nat | k <= |s| :: OccursAt(s, sep, k)
  }

  /** A text without the first character of `sep` does not contain `sep`. */
  lemma NotContainsWithoutFirstChar(s: string, sep: string)
    requires |sep| > 0
    requires forall k :: 0 <= k < |s| ==> s[k] != sep[0]
    ensures !Contains(s, sep)
  {
    forall k: nat | k <= |s| ensures !OccursAt(s, sep, k) {
      if k + |sep| <= |s| {
        assert s[k..k + |sep|][0] == s[k];
      }
    }
  }

  /** The first position at or after `from` where `sep` occurs in `s`. */
  function FindFrom(s: string, sep: string, from: nat): (r: Option<nat>)
    ensures r.Some? ==> from <= r.value && OccursAt(s, sep, r.value)
    ensures r.Some? ==> forall k: nat :: from <= k < r.value ==> !OccursAt(s, sep, k)
    ensures r.None? ==> forall k: nat :: from <= k ==> !OccursAt(s, sep, k)
    decreases |s| - from
  {
    if from + |sep| > |s| then None
    else if s[from..from + |sep|] == sep then Some(from)
    else FindFrom(s, sep, from + 1)
  }

  /** `s.split(sep)[0]`: the text before the first occurrence of `sep`, or all
      of `s` when `sep` does not occur. */
  function FirstField(s: string, sep: string): (r: string)
    requires |sep| > 0
    ensures |r| <= |s| && r == s[..|r|]
    ensures !Contains(r, sep)
    ensures |r| < |s| ==> OccursAt(s, sep, |r|)
    ensures forall k: nat :: k < |r| ==> !OccursAt(s, sep, k)
    ensures !Contains(s, sep) <==> r == s
  {
    match FindFrom(s, sep, 0)
    case None => s
    case Some(k) =>
      var r := s[..k];
      forall j: nat | OccursAt(r, sep, j) ensures false {
        assert r[j..j + |sep|] == s[j..j + |sep|];
        assert OccursAt(s, sep, j);
      }
      r
  }

  /** Splitting `a + sep + b` at its first `sep` gives `a` back when no
      character of `a` is the first character of `sep`. */
  lemma FirstFieldOfJoined(a: string, sep: string, b: string)
    requires |sep| > 0
    requires forall k :: 0 <= k < |a| ==> a[k] != sep[0]
    ensures FirstField(a + sep + b, sep) == a
  {
    var s := a + sep + b;
    var r := FirstField(s, sep);
    assert OccursAt(s, sep, |a|) by {
      assert s[|a|..|a| + |sep|] == sep;
    }
    assert forall k :: 0 <= k < |a| ==> s[k] == a[k];
    assert |r| <= |a|;
    assert OccursAt(s, sep, |r|);
    assert s[|r|..|r| + |sep|][0] == s[|r|];
    assert |r| == |a|;
    assert r == s[..|a|] == a;
  }

  /** The same for a two-character separator whose characters differ, when
      `a` does not contain it: no occurrence can straddle the end of `a`. */
  lemma FirstFieldOfJoinedPair(a: string, sep: string, b: string)
    requires |sep| == 2 && sep[0] != sep[1]
    requires !Contains(a, sep)
    ensures FirstField(a + sep + b, sep) == a
  {
    var s := a + sep + b;
    var r := FirstField(s, sep);
    assert OccursAt(s, sep, |a|) by {
      assert s[|a|..|a| + |sep|] == sep;
    }
    assert forall k :: 0 <= k < |a| ==> s[k] == a[k];
    assert s[|a|] == sep[0];
    assert |r| <= |a|;
    assert OccursAt(s, sep, |r|);
    assert s[|r|..|r| + 2][0] == s[|r|] && s[|r|..|r| + 2][1] == s[|r| + 1];
    assert !OccursAt(a, sep, |r|);
    assert |r| + 2 > |a|;
    assert |r| == |a|;
    assert r == s[..|a|] == a;
  }

  function LowerChar(c: char): char {
    if 'A' <= c <= 'Z' then (c as int - 'A' as int + 'a' as int) as char else c
  }

  /** `s.lower()` restricted to ASCII letters. */
  function Lower(s: string): (r: string)
    ensures |r| == |s|
    ensures forall k :: 0 <= k < |s| ==> r[k] == LowerChar(s[k])
  {
    seq(|s|, k requires 0 <= k < |s| => LowerChar(s[k]))
  }

  predicate EndsWith(s: string, suffix: string) {
    |suffix| <= |s| && s[|s| - |suffix|..] == suffix
  }
}

=== FILE: video_processor.dfy ===
/** The single-video retention engine of core/video_processor.py
    (`VideoProcessor.run`). Decoding, the output writer and the pixel work are
    abstracted: a `Source` says what opening the files yields and which frames
    can be read, a job-fixed function `measure` gives the outcome of the pixel
    work on a (previous, current) frame pair, and the stop request arrives as
    the index of the first cancellation checkpoint that sees it. Checkpoints are
    numbered in the order the run polls them: one before each frame read, one
    before the write phase, one before each frame write. */
module VideoProcessor {
  import opened Wrappers
  import opened Detector
  import Paths

  /** A decoded colour frame; only `measure` looks inside. */
  datatype Frame = Frame(pixels: seq<int>)

  /** What the decode/encode collaborators report for one job: whether the
      input opened, its metadata, the state of the output directory, whether
      the writer opened, and the frames that can be read (the read of index
      |frames| fails). */
  datatype Source = Source(
    inputOpened: bool,
    frameCount: int,
    fps: real,
    width: int,
    height: int,
    outputDirExists: bool,
    outputDirCreatable: bool,
    writerOpened: bool,
    frames: seq<Frame>)

  /** The constructor arguments of `VideoProcessor`. */
  datatype Job = Job(input: string, output: string, algorithm: string, params: Params, reverse: bool)

  /** Why a run ended with the `error` signal. */
  datatype Failure =
    | Cancelled            // the stop request was seen at a checkpoint
    | CannotOpenInput      // `cap.isOpened()` failed
    | InvalidMetadata      // frames, width or height not positive
    | CannotCreateOutputDir
    | CannotOpenOutput     // `out.isOpened()` failed
    | PixelError           // an OpenCV call raised while comparing frames

  /** The signals a run emits, in order. */
  datatype Event =
    | Progress(percent: int, current: int, total: int)
    | Finished(speed: real, kept: nat, output: string)
    | Error(failure: Failure)

  predicate IsTerminal(e: Event) {
    e.Finished? || e.Error?
  }

  /** The stop request is visible at checkpoint `k`. */
  predicate CancelSeen(cancelAt: Option<nat>, k: nat) {
    cancelAt.Some? && cancelAt.value <= k
  }

  // ---------------------------------------------------------------------------
  // The reference definition of retention

  /** The comparison of middle frame `j` with its predecessor raises. */
  predicate FaultAt(total: nat, frames: seq<Frame>, measure: (Frame, Frame) -> Comparison, j: nat) {
    0 < j < total - 1 && j < |frames| && measure(frames[j - 1], frames[j]).Raised?
  }

  /** Frame `j` is retained: it is the first or the last frame, or the detector
      keeps it when compared with frame `j - 1`. */
  predicate KeptAt(c: Config, total: nat, frames: seq<Frame>, measure: (Frame, Frame) -> Comparison, j: nat)
    requires j < |frames|
  {
    j == 0 || j == total - 1 || Decide(c, measure(frames[j - 1], frames[j])) == Keep
  }

  /** The indices among `lo .. hi - 1` that `mask` marks, in increasing order. */
  function Select(mask: seq<bool>, lo: nat, hi: nat): (r: seq<nat>)
    requires hi <= |mask|
    ensures forall k :: 0 <= k < |r| ==> lo <= r[k] < hi && mask[r[k]]
    ensures |r| <= (if lo <= hi then hi - lo else 0)
    decreases hi - lo
  {
    if lo >= hi then []
    else (if mask[lo] then [lo] else []) + Select(mask, lo + 1, hi)
  }

  lemma {:induction false} SelectSorted(mask: seq<bool>, lo: nat, hi: nat)
    requires hi <= |mask|
    ensures forall a, b :: 0 <= a < b < |Select(mask, lo, hi)| ==> Select(mask, lo, hi)[a] < Select(mask, lo, hi)[b]
    decreases hi - lo
  {
    if lo < hi {
      SelectSorted(mask, lo + 1, hi);
      var head: seq<nat> := if mask[lo] then [lo] else [];
      var rest := Select(mask, lo + 1, hi);
      var r := head + rest;
      assert Select(mask, lo, hi) == r;
      assert forall k :: |head| <= k < |r| ==> r[k] == rest[k - |head|] && lo < r[k];
    }
  }

  lemma {:induction false} SelectComplete(mask: seq<bool>, lo: nat, hi: nat)
    requires hi <= |mask|
    ensures forall j :: lo <= j < hi && mask[j] ==> j in Select(mask, lo, hi)
    decreases hi - lo
  {
    if lo < hi {
      SelectComplete(mask, lo + 1, hi);
      var rest := Select(mask, lo + 1, hi);
      assert Select(mask, lo, hi) == (if mask[lo] then [lo] else []) + rest;
      assert forall j :: j in rest ==> j in Select(mask, lo, hi);
    }
  }

  /** Which of the readable frames are retained. */
  function KeptMask(c: Config, total: nat, frames: seq<Frame>, measure: (Frame, Frame) -> Comparison): (m: seq<bool>)
    ensures |m| == |frames|
    ensures forall j :: 0 <= j < |frames| ==> m[j] == KeptAt(c, total, frames, measure, j)
  {
    seq(|frames|, j requires 0 <= j < |frames| => KeptAt(c, total, frames, measure, j))
  }

  /** The retained indices among `lo .. hi - 1`, in increasing order. */
  function KeptBetween(c: Config, total: nat, frames: seq<Frame>, measure: (Frame, Frame) -> Comparison,
                       lo: nat, hi: nat): (r: seq<nat>)
    requires hi <= |frames|
    ensures forall k :: 0 <= k < |r| ==> lo <= r[k] < hi && KeptAt(c, total, frames, measure, r[k])
    ensures forall a, b :: 0 <= a < b < |r| ==> r[a] < r[b]
    ensures forall j :: lo <= j < hi && KeptAt(c, total, frames, measure, j) ==> j in r
    ensures |r| <= (if lo <= hi then hi - lo else 0)
  {
    var mask := KeptMask(c, total, frames, measure);
    SelectSorted(mask, lo, hi);
    SelectComplete(mask, lo, hi);
    var r := Select(mask, lo, hi);
    assert forall k :: 0 <= k < |r| ==> KeptAt(c, total, frames, measure, r[k]) by {
      forall k | 0 <= k < |r| ensures KeptAt(c, total, frames, measure, r[k]) {
        assert mask[r[k]];
      }
    }
    assert forall j :: lo <= j < hi && KeptAt(c, total, frames, measure, j) ==> j in r by {
      forall j | lo <= j < hi && KeptAt(c, total, frames, measure, j) ensures j in r {
        assert mask[j];
      }
    }
    r
  }

  // ---------------------------------------------------------------------------
  // The analysis loop

  datatype StopReason = Exhausted | ReadFailed | CancelRequested | DetectorFault

  /** The analysis result: retained indices in source order, how many frames
      were processed, and why the loop ended. */
  datatype Scan = Scan(kept: seq<nat>, processed: nat, stop: StopReason)

  /** One iteration of the frame loop from index `i` on, with `prev` the
      preprocessed previous frame. Frame 0 is kept and becomes `prev`; the last
      frame is kept; a middle frame is decided by comparing it with `prev`, and
      then replaces `prev` whatever the decision. */
  function ScanFrom(c: Config, total: nat, frames: seq<Frame>, measure: (Frame, Frame) -> Comparison,
                    cancelAt: Option<nat>, i: nat, prev: Option<Frame>): (r: Scan)
    requires i <= total && i <= |frames|
    requires 0 < i < total ==> prev == Some(frames[i - 1])
    ensures i <= r.processed <= total && r.processed <= |frames|
    ensures r.kept == KeptBetween(c, total, frames, measure, i, r.processed)
    ensures forall j :: i <= j < r.processed ==> !CancelSeen(cancelAt, j) && !FaultAt(total, frames, measure, j)
    ensures r.stop == Exhausted <==> r.processed == total
    ensures r.stop == ReadFailed ==> r.processed == |frames| && !CancelSeen(cancelAt, r.processed)
    ensures r.stop == CancelRequested ==> CancelSeen(cancelAt, r.processed)
    ensures r.stop == DetectorFault ==>
      FaultAt(total, frames, measure, r.processed) && !CancelSeen(cancelAt, r.processed)
    decreases total - i
  {
    if i == total then Scan([], total, Exhausted)
    else if CancelSeen(cancelAt, i) then Scan([], i, CancelRequested)
    else if i == |frames| then Scan([], i, ReadFailed)
    else
      var frame := frames[i];
      var verdict :=
        if i == 0 || i == total - 1 then Keep
        else match prev
          case None => Discard
          case Some(p) => Decide(c, measure(p, frame));
      if verdict == Fault then Scan([], i, DetectorFault)
      else
        var next := if 0 < i == total - 1 then prev else Some(frame);
        var rest := ScanFrom(c, total, frames, measure, cancelAt, i + 1, next);
        Scan((if verdict == Keep then [i] else []) + rest.kept, rest.processed, rest.stop)
  }

  /** The whole frame loop over `range(total)`. */
  function Analyse(c: Config, total: nat, frames: seq<Frame>, measure: (Frame, Frame) -> Comparison,
                   cancelAt: Option<nat>): (r: Scan)
    ensures r.processed <= total && r.processed <= |frames|
    ensures r.kept == KeptBetween(c, total, frames, measure, 0, r.processed)
    ensures |r.kept| <= r.processed
    ensures forall a, b :: 0 <= a < b < |r.kept| ==> r.kept[a] < r.kept[b]
    ensures forall k :: 0 <= k < |r.kept| ==> r.kept[k] < r.processed
    ensures r.processed >= 1 ==> |r.kept| >= 1 && r.kept[0] == 0
    ensures r.processed == total >= 1 ==> |r.kept| >= 1 && r.kept[|r.kept| - 1] == total - 1
  {
    var r := ScanFrom(c, total, frames, measure, cancelAt, 0, None);
    KeptAnchors(c, total, frames, measure, r.processed);
    r
  }

  /** Among the first `p` frames, frame 0 is the first retained one, and when
      all `total` frames were read, frame `total - 1` is the last. */
  lemma KeptAnchors(c: Config, total: nat, frames: seq<Frame>, measure: (Frame, Frame) -> Comparison, p: nat)
    requires p <= total && p <= |frames|
    ensures var r := KeptBetween(c, total, frames, measure, 0, p);
      && (p >= 1 ==> |r| >= 1 && r[0] == 0)
      && (p == total >= 1 ==> |r| >= 1 && r[|r| - 1] == total - 1)
  {
    var r := KeptBetween(c, total, frames, measure, 0, p);
    if p >= 1 {
      assert KeptAt(c, total, frames, measure, 0);
      var k :| 0 <= k < |r| && r[k] == 0;
      assert k == 0;
    }
    if p == total >= 1 {
      assert KeptAt(c, total, frames, measure, total - 1);
      var k :| 0 <= k < |r| && r[k] == total - 1;
      assert k == |r| - 1;
    }
  }

  /** The progress signals of the frame loop: after the k-th processed frame,
      `int(k / total * 100)`, k and total. */
  function AnalysisProgress(processed: nat, total: nat): (ev: seq<Event>)
    requires 0 < total && processed <= total
    ensures |ev| == processed
    ensures forall k :: 0 <= k < |ev| ==> ev[k].Progress? && ev[k].current == k + 1 && ev[k].total == total
    ensures forall k :: 0 <= k < |ev| ==> 0 <= ev[k].percent <= 100
    ensures forall a, b :: 0 <= a < b < |ev| ==> ev[a].percent <= ev[b].percent
  {
    var ev := seq(processed, k requires 0 <= k < processed => Progress(Percent(k + 1, total), k + 1, total));
    forall a, b | 0 <= a < b < |ev| ensures ev[a].percent <= ev[b].percent {
      PercentMonotone(a + 1, b + 1, total);
    }
    ev
  }

  /** `int(done / total * 100)` on exact numbers. */
  function Percent(done: nat, total: nat): (p: int)
    requires 0 < total && done <= total
    ensures 0 <= p <= 100
    ensures done == total ==> p == 100
  {
    MonotoneDivision(done * 100, total * 100, total);
    HundredTimesOver(total);
    done * 100 / total
  }

  lemma HundredTimesOver(n: nat)
    requires 0 < n
    ensures n * 100 / n == 100
  {
    var q := n * 100 / n;
    var r := n * 100 % n;
    assert n * 100 == n * q + r && 0 <= r < n;
  }

  /** More frames done never lowers the percentage. */
  lemma PercentMonotone(a: nat, b: nat, total: nat)
    requires 0 < total && a <= b <= total
    ensures Percent(a, total) <= Percent(b, total)
  {
    MonotoneDivision(a * 100, b * 100, total);
  }

  lemma MultiplyMonotone(n: nat, x: int, y: int)
    ensures x <= y ==> n * x <= n * y
  {
    assert n * y - n * x == n * (y - x);
  }

  lemma MonotoneDivision(a: nat, b: nat, n: nat)
    requires a <= b && 0 < n
    ensures a / n <= b / n
  {
    var qa, qb := a / n, b / n;
    assert n * qa <= a by {
      assert a == n * qa + a % n;
    }
    assert b < n * (qb + 1) by {
      assert b == n * qb + b % n;
    }
    MultiplyMonotone(n, qb + 1, qa);
  }

  // ---------------------------------------------------------------------------
  // The write phase and the result

  /** `frames_to_keep.reverse()`. */
  function Reverse(s: seq<nat>): (r: seq<nat>)
    ensures |r| == |s|
    ensures forall k :: 0 <= k < |s| ==> r[k] == s[|s| - 1 - k]
  {
    if |s| == 0 then [] else Reverse(s[1..]) + [s[0]]
  }

  /** The order in which the retained frames are written. */
  function WriteOrder(kept: seq<nat>, reverse: bool): (r: seq<nat>)
    ensures |r| == |kept|
    ensures forall k :: 0 <= k < |r| ==> r[k] == kept[if reverse then |kept| - 1 - k else k]
  {
    if reverse then Reverse(kept) else kept
  }

  /** The write loop from position `w`, whose checkpoint has number
      `firstCheck + w`: the number of frames written and whether the stop
      request ended the loop. */
  function WriteFrom(order: seq<nat>, cancelAt: Option<nat>, firstCheck: nat, w: nat): (r: (nat, bool))
    requires w <= |order|
    ensures w <= r.0 <= |order|
    ensures r.1 ==> r.0 < |order| && CancelSeen(cancelAt, firstCheck + r.0)
    ensures !r.1 ==> r.0 == |order|
    ensures r.0 > w ==> !CancelSeen(cancelAt, firstCheck + r.0 - 1)
    decreases |order| - w
  {
    if w == |order| then (w, false)
    else if CancelSeen(cancelAt, firstCheck + w) then (w, true)
    else WriteFrom(order, cancelAt, firstCheck, w + 1)
  }

  /** The frame rate the run uses: 30 when the container reports none. */
  function EffectiveFps(fps: real): (f: real)
    ensures f > 0.0
    ensures fps > 0.0 ==> f == fps
  {
    if fps <= 0.0 then 30.0 else fps
  }

  /** The suggested speed, computed as the source does, guards included:
      output duration over input duration, in percent. */
  function SpeedPercent(kept: nat, total: int, fps: real): (r: real)
    ensures total <= 0 || fps <= 0.0 ==> r == 0.0
  {
    var originalDuration := if fps > 0.0 then total as real / fps else 0.0;
    var newDuration := if fps > 0.0 then kept as real / fps else 0.0;
    if originalDuration > 0.0 then (newDuration / originalDuration) * 100.0 else 0.0
  }

  /** With a positive frame count and frame rate the speed is the kept share
      of the frames, in percent. */
  lemma SpeedIsKeptShare(kept: nat, total: int, fps: real)
    requires total > 0 && fps > 0.0
    ensures SpeedPercent(kept, total, fps) == (kept as real) * 100.0 / (total as real)
  {
    var od := total as real / fps;
    var nd := kept as real / fps;
    assert od > 0.0;
    assert nd / od == (kept as real) / (total as real) by {
      assert nd * fps == kept as real;
      assert od * fps == total as real;
    }
  }

  /** The result of a run: the emitted signals, the source indices written, in
      write order, and the number of cancellation checkpoints polled. */
  datatype Outcome = Outcome(events: seq<Event>, written: seq<nat>, checks: nat)

  /** The last signal of a run. */
  function Last(ev: seq<Event>): Event
    requires |ev| > 0
  {
    ev[|ev| - 1]
  }

  /** Frames, width and height must be positive. */
  predicate ValidMetadata(s: Source): (ok: bool)
    ensures !ok <==> s.frameCount <= 0 || s.width <= 0 || s.height <= 0
  {
    s.frameCount > 0 && s.width > 0 && s.height > 0
  }

  /** `os.makedirs` is attempted for a non-empty, missing output directory. */
  predicate OutputDirFails(job: Job, s: Source): (fails: bool)
    ensures Paths.Dirname(job.output) == "" ==> !fails
    ensures s.outputDirExists || s.outputDirCreatable ==> !fails
    ensures Paths.Dirname(job.output) != "" && !s.outputDirExists ==> (fails <==> !s.outputDirCreatable)
  {
    Paths.Dirname(job.output) != "" && !s.outputDirExists && !s.outputDirCreatable
  }

  predicate ProgressBounded(ev: seq<Event>) {
    forall k :: 0 <= k < |ev| && ev[k].Progress? ==> 0 <= ev[k].percent <= 100
  }

  predicate ProgressMonotone(ev: seq<Event>) {
    forall a, b :: 0 <= a < b < |ev| && ev[a].Progress? && ev[b].Progress? ==> ev[a].percent <= ev[b].percent
  }

  /** Exactly one terminal signal, and it comes last. */
  predicate OneTerminalLast(ev: seq<Event>) {
    |ev| > 0 && IsTerminal(ev[|ev| - 1]) && forall k :: 0 <= k < |ev| - 1 ==> ev[k].Progress?
  }

  /** The signals of a run so far: the initial progress signal and then only
      progress signals, within 0..100 and never decreasing. */
  predicate ProgressSoFar(ev: seq<Event>) {
    && |ev| > 0 && ev[0] == Progress(0, 0, 1)
    && (forall k :: 0 <= k < |ev| ==> ev[k].Progress?)
    && ProgressBounded(ev) && ProgressMonotone(ev)
  }

  /** The signals of a whole run. */
  predicate WellFormedRun(ev: seq<Event>) {
    && OneTerminalLast(ev) && ev[0] == Progress(0, 0, 1)
    && ProgressBounded(ev) && ProgressMonotone(ev)
  }

  lemma EndWithTerminal(ev: seq<Event>, e: Event)
    requires ProgressSoFar(ev) && IsTerminal(e)
    ensures WellFormedRun(ev + [e])
  {
  }

  lemma AppendLaterProgress(ev: seq<Event>, p: nat, total: nat)
    requires ProgressSoFar(ev) && p <= 100
    requires forall k :: 0 <= k < |ev| ==> ev[k].percent <= p
    ensures ProgressSoFar(ev + [Progress(p, total, total)])
  {
  }

  lemma AnalysisProgressFollowsStart(processed: nat, total: nat)
    requires 0 < total && processed <= total
    ensures ProgressSoFar([Progress(0, 0, 1)] + AnalysisProgress(processed, total))
  {
    var progress := AnalysisProgress(processed, total);
    var ev := [Progress(0, 0, 1)] + progress;
    assert forall k :: 0 < k < |ev| ==> ev[k] == progress[k - 1];
  }

  /** The write phase, once the analysis ran to the end of the video or to a
      failed read: the cancellation check before writing, the optional
      reversal, the write loop, and the speed. */
  function Conclude(job: Job, total: nat, fps: real, scan: Scan, cancelAt: Option<nat>, analysed: seq<Event>): (o: Outcome)
    requires 0 < total && ProgressSoFar(analysed)
    requires scan.stop == Exhausted || scan.stop == ReadFailed
    ensures WellFormedRun(o.events)
    ensures o.events[|o.events| - 1] == Error(Cancelled) || o.events[|o.events| - 1].Finished?
    ensures o.events[|o.events| - 1].Finished? ==>
      && o.written == WriteOrder(scan.kept, job.reverse)
      && o.events[|o.events| - 1] == Finished(SpeedPercent(|scan.kept|, total, fps), |scan.kept|, job.output)
    ensures o.events[|o.events| - 1] == Error(Cancelled) ==> cancelAt.Some? && cancelAt.value < o.checks
    ensures cancelAt.None? ==> o.events[|o.events| - 1].Finished?
  {
    var checks := if scan.stop == Exhausted then total else scan.processed + 1;
    AppendLaterProgress(analysed, 100, total);
    var done := analysed + [Progress(100, total, total)];
    if CancelSeen(cancelAt, checks) then
      EndWithTerminal(done, Error(Cancelled));
      Outcome(done + [Error(Cancelled)], [], checks + 1)
    else
      var order := WriteOrder(scan.kept, job.reverse);
      var (w, stopped) := WriteFrom(order, cancelAt, checks + 1, 0);
      if stopped then
        EndWithTerminal(done, Error(Cancelled));
        Outcome(done + [Error(Cancelled)], order[..w], checks + 1 + w + 1)
      else
        var speed := SpeedPercent(|order|, total, fps);
        EndWithTerminal(done, Finished(speed, |order|, job.output));
        Outcome(done + [Finished(speed, |order|, job.output)], order, checks + 1 + |order|)
  }

  /** The analysis and write phases, once the input and output are open and
      the metadata is valid. */
  function Process(job: Job, src: Source, measure: (Frame, Frame) -> Comparison, cancelAt: Option<nat>): (o: Outcome)
    requires ValidMetadata(src)
    ensures WellFormedRun(o.events)
    ensures o.events[|o.events| - 1] in {Error(Cancelled), Error(PixelError)} || o.events[|o.events| - 1].Finished?
    ensures o.events[|o.events| - 1] == Error(PixelError) <==>
      Analyse(ResolveConfig(job.algorithm, job.params), src.frameCount, src.frames, measure, cancelAt).stop == DetectorFault
    ensures o.events[|o.events| - 1].Finished? ==>
      var scan := Analyse(ResolveConfig(job.algorithm, job.params), src.frameCount, src.frames, measure, cancelAt);
      && (scan.stop == Exhausted || scan.stop == ReadFailed)
      && o.written == WriteOrder(scan.kept, job.reverse)
      && o.events[|o.events| - 1]
         == Finished(SpeedPercent(|scan.kept|, src.frameCount, EffectiveFps(src.fps)), |scan.kept|, job.output)
    ensures o.events[|o.events| - 1] == Error(Cancelled) ==> cancelAt.Some? && cancelAt.value < o.checks
    ensures cancelAt.None? ==> o.events[|o.events| - 1] != Error(Cancelled)
  {
    var start := [Progress(0, 0, 1)];
    var c := ResolveConfig(job.algorithm, job.params);
    var total: nat := src.frameCount;
    var scan := Analyse(c, total, src.frames, measure, cancelAt);
    AnalysisProgressFollowsStart(scan.processed, total);
    var analysed := start + AnalysisProgress(scan.processed, total);
    match scan.stop
    case CancelRequested => Interrupted(analysed, Cancelled, scan.processed + 1)
    case DetectorFault => Interrupted(analysed, PixelError, scan.processed + 1)
    case _ => Conclude(job, total, EffectiveFps(src.fps), scan, cancelAt, analysed)
  }

  /** A run the analysis loop ended early: its signals so far, the error,
      nothing written. */
  function Interrupted(analysed: seq<Event>, f: Failure, checks: nat): (o: Outcome)
    requires ProgressSoFar(analysed)
    ensures WellFormedRun(o.events)
    ensures o.events[|o.events| - 1] == Error(f)
    ensures o.written == [] && o.checks == checks
  {
    EndWithTerminal(analysed, Error(f));
    Outcome(analysed + [Error(f)], [], checks)
  }

  /** `VideoProcessor.run`: the initial progress signal, the checks on the input,
      its metadata, the output directory and the writer, then the analysis and
      write phases. */
  function Run(job: Job, src: Source, measure: (Frame, Frame) -> Comparison, cancelAt: Option<nat>): (o: Outcome)
    ensures WellFormedRun(o.events)
    ensures o.events[|o.events| - 1] == Error(CannotOpenInput) <==> !src.inputOpened
    ensures o.events[|o.events| - 1] == Error(InvalidMetadata) <==> src.inputOpened && !ValidMetadata(src)
    ensures o.events[|o.events| - 1].Finished? ==>
      src.inputOpened && ValidMetadata(src) && !OutputDirFails(job, src) && src.writerOpened
    ensures src.inputOpened && ValidMetadata(src) && !OutputDirFails(job, src) && src.writerOpened ==>
      o == Process(job, src, measure, cancelAt)
    ensures o.events[|o.events| - 1].Finished? ==>
      && src.frameCount > 0 && EffectiveFps(src.fps) > 0.0
      && o.events[|o.events| - 1].speed == SpeedPercent(o.events[|o.events| - 1].kept, src.frameCount, EffectiveFps(src.fps))
    ensures o.events[|o.events| - 1] == Error(Cancelled) ==> cancelAt.Some? && cancelAt.value < o.checks
    ensures cancelAt.None? ==> o.events[|o.events| - 1] != Error(Cancelled)
  {
    if !src.inputOpened then SetupFailure(CannotOpenInput)
    else if !ValidMetadata(src) then SetupFailure(InvalidMetadata)
    else if OutputDirFails(job, src) then SetupFailure(CannotCreateOutputDir)
    else if !src.writerOpened then SetupFailure(CannotOpenOutput)
    else Process(job, src, measure, cancelAt)
  }

  /** A run that fails before the first frame is read: the initial progress
      signal and the error. */
  function SetupFailure(f: Failure): (o: Outcome)
    ensures WellFormedRun(o.events) && |o.events| == 2
    ensures o.events[1] == Error(f) && o.written == [] && o.checks == 0
  {
    Outcome([Progress(0, 0, 1), Error(f)], [], 0)
  }
}

=== FILE: wrappers.dfy ===
/** Optional values, used for Python's `None` and for lookups that may miss. */
module Wrappers {

  datatype Option<+T> = None | Some(value: T) {

    /** The carried value, or `default` when there is none. */
    function GetOr(default: T): T {
      match this
      case Some(v) => v
      case None => default
    }
  }
}
